=== FILE: README.md ===
# ESPN NBA box-score pipeline, modelled in Dafny

This project models the box-score crawl of `nba_stats/ESPN_NBA.py`. The crawl has these steps:

- It builds the page address of a game (`get_url`).
- It fetches the page and takes its `text/javascript` script bodies.
- It extracts the `window['__espnfitt__'] = {...};` payload from each body.
- It turns the first decoded payload into the box-score frame (`_convert_to_dataframe`). The frame has one row per player of each team, starters first, then one totals row per team. Its columns are laid out by the constants of `nba_stats/cond.py`.

The model has one module per step:

| module | what it models |
|---|---|
| `Wrappers`, `Errors` | `Option` for Python's `None`; `Result` for a raised exception, with one error per distinguishable exception |
| `Json` | the decoded document and the Python operations the code applies to it: truthiness, `== True`, subscripting, iteration, `str()`, `int()` |
| `Digits` | decimal printing and parsing of naturals |
| `Columns` | `BOX_SCORE_COLS`, `HEADER_COLS` and `PLAYED_STATS_RENAME_COLS`, and the facts the layout relies on |
| `Url` | `get_url`: its check order and its address template |
| `Anchor` | the payload pattern, as a string function: leftmost anchor, then a greedy capture up to the last `}` directly followed by `;` |
| `Payload` | the collect loop of `_get_json_by_compile`, with `json.loads` as a parameter |
| `Compound` | `str(x).split('-')` and the made/attempted split of `"m-a"` strings |
| `Frame` | the one-row pandas frame: labelled cells with lookup, assignment, drop, projection and renaming |
| `Header` | the game header read from `gmStrp` and `gmInfo` |
| `Stats` | a played or totals line: label pairing, renaming, compound splits, ratios, dropping and column selection |
| `Rows` | the rows of one team |
| `Convert` | the whole conversion and `crawl_box_score` |

A row is a sequence of 29 cells aligned with `BOX_SCORE_COLS`. A cell is one of:

- a payload value;
- a flag;
- a null;
- a count from a split;
- a percentage, kept as its pair of counts.

## Model

| member | source | states |
|---|---|---|
| Url.GetUrl | nba_stats/ESPN_NBA.py:56-74 | `idx` is checked before `page_typ`. Each argument is checked for falsiness first and its type second, and each case raises its own error. On success the address is exactly `https://www.espn.com/nba/` + page type + `/_/gameId/` + identifier. |
| Url.PageUrlRoundTrip | nba_stats/ESPN_NBA.py:73-74 | An address built from a page type without `/` reads back to the page type and identifier it was built from. |
| Url.ParseUrlSound | nba_stats/ESPN_NBA.py:73-74 | An address that reads back to a page type and an identifier is the address built from them, so the template is injective. |
| Url.BoxScoreUrlExample | nba_stats/test.py:21-98 | The expectations of the unit tests hold of `get_url`: the box-score and game addresses of game 401547683; `Missing idx` for a falsy identifier and the identifier type error for `1`; the missing page type for `None` and `[]`, and the page type error for `1`, `True` and `['boxscore']`. |
| Anchor.SkipWs | nba_stats/ESPN_NBA.py:356-357 | `\s*` consumes exactly the maximal run of whitespace, where whitespace is what `str.isspace` accepts (ASCII and Unicode spaces and separators). |
| Anchor.LastClose | nba_stats/ESPN_NBA.py:356-357 | Finds the last `}` directly followed by `;` in a range, or reports that there is none. |
| Anchor.MatchAt | nba_stats/ESPN_NBA.py:356-357 | A match found at a position has the pattern's shape and ends at the greedy (last possible) close. |
| Anchor.MatchAtComplete | nba_stats/ESPN_NBA.py:356-357 | If the pattern's shape occurs at a position, a match is found there, with the same anchor and brace and a close at least as far. |
| Anchor.Search | nba_stats/ESPN_NBA.py:146-149 | `pattern.search` returns the leftmost matching position: no earlier position matches, and no match means no position matches. |
| Anchor.Capture | nba_stats/ESPN_NBA.py:148-151 | Group 1 of a match starts with `{`, ends with `}` and is a slice of the body matched by the pattern's shape. |
| Anchor.CaptureFollowedBySemicolon | nba_stats/ESPN_NBA.py:148-151 | The captured text is directly followed by `;` in the script body. |
| Anchor.CaptureIsLeftmostGreedy | nba_stats/ESPN_NBA.py:356-357 | The capture belongs to the leftmost anchor and ends at the last `};` of the body. |
| Anchor.CaptureComplete | nba_stats/ESPN_NBA.py:148-149 | A body that contains the pattern's shape always yields a capture. |
| Anchor.CaptureExample | nba_stats/ESPN_NBA.py:356-357 | A concrete body and its capture. |
| Anchor.CaptureAtStart | nba_stats/ESPN_NBA.py:148-151 | A body matched at its start, with no later `};`, captures exactly the text from its `{` through that close. |
| Anchor.CaptureUnicodeSpaceExample | nba_stats/ESPN_NBA.py:356-357 | A no-break space before `=` is skipped like any other whitespace, and the object literal is still captured. |
| Payload.ScriptCapture | nba_stats/ESPN_NBA.py:146-151 | A script contributes a capture exactly when its body is present, non-empty and matched. |
| Payload.Captures | nba_stats/ESPN_NBA.py:146-153 | At most one capture per script, and each capture is braced. |
| Payload.CapturesAppend | nba_stats/ESPN_NBA.py:146-153 | The loop keeps script order: the captures of two script lists, one after the other, are the captures of the joined list. |
| Payload.CapturesSingle | nba_stats/ESPN_NBA.py:146-153 | One script appends one entry when it matches and nothing otherwise. |
| Payload.ParseAll | nba_stats/ESPN_NBA.py:152-153 | Every capture is decoded in order. One decode failure aborts the loop. |
| Payload.ExtractPayloads | nba_stats/ESPN_NBA.py:139-153 | The documents are the decodes of the captures, in script order. Extraction fails exactly when some capture does not decode. |
| Payload.NoScriptsNoPayloads | nba_stats/ESPN_NBA.py:136-139 | A page without scripts yields an empty payload list and raises nothing at this stage. |
| Json.GetKey | nba_stats/ESPN_NBA.py:193-199 | `v[key]` succeeds exactly on a dictionary holding the key. A missing key is a KeyError. |
| Json.GetIndex | nba_stats/ESPN_NBA.py:236-238 | `v[i]` on a list is its element and needs the index in range. On a string it is the one-character string. |
| Json.Iterate | nba_stats/ESPN_NBA.py:201 | The elements a `for` loop visits: those of a list, or each character of a string as a one-character string, in order. An empty dictionary yields nothing. Scalars and non-empty dictionaries fail. |
| Json.IntOfString | nba_stats/ESPN_NBA.py:204-208 | `int()` of a string succeeds exactly on a non-empty digit string and yields its decimal value. |
| Json.IntOfShowNat | nba_stats/ESPN_NBA.py:204-208 | `int()` reads back the decimal print of any natural. |
| Json.Int | nba_stats/ESPN_NBA.py:204-208 | `int()` of a number is itself, of a string is its decimal value, and of null, a list or a dictionary fails. |
| Json.Str | nba_stats/ESPN_NBA.py:278-283 | `str()` keeps a string and prints a list or dictionary with a leading bracket, never a digit. |
| Digits.ShowNatRoundTrip | nba_stats/ESPN_NBA.py:278-283 | Parsing the decimal print of a natural gives it back. |
| Compound.SplitOn | nba_stats/ESPN_NBA.py:278-283 | `split('-')` gives at least one field, and no field contains `-`. |
| Compound.SplitJoinRoundTrip | nba_stats/ESPN_NBA.py:278-283 | Joining the fields of a split with the separator gives the string back. |
| Compound.SplitAfterField | nba_stats/ESPN_NBA.py:278-283 | A separator-free first field followed by the separator splits off as the first field. |
| Compound.SplitCompound | nba_stats/ESPN_NBA.py:278-283 | The split succeeds exactly when there are at least two fields and both are digit strings. The made and attempted counts are fields 0 and 1. |
| Compound.CompoundRoundTrip | nba_stats/ESPN_NBA.py:278-283 | `"m-a"` splits back into (m, a). |
| Compound.ExtraFieldsIgnored | nba_stats/ESPN_NBA.py:278-283 | Fields after the second do not change the split. |
| Compound.NoSeparatorFails | nba_stats/ESPN_NBA.py:279 | A value without `-` has no field 1, so reading it raises. |
| Compound.CompoundExamples | nba_stats/ESPN_NBA.py:278-283 | `"7-12"` gives (7, 12) and `"0-0"` gives (0, 0). |
| Columns.Renamed | nba_stats/cond.py:51-66 | A label with a rename entry becomes its target. Any other label is unchanged. |
| Columns.HeaderColsArePrefix | nba_stats/cond.py:7-16 | `HEADER_COLS` is exactly the first nine entries of `BOX_SCORE_COLS`. |
| Columns.BoxScoreColsLayout | nba_stats/cond.py:7-37 | `BOX_SCORE_COLS` has 29 distinct names: nine header columns plus the 20 stat columns that a not-played row fills with nulls. |
| Columns.IndexConstantsName | nba_stats/cond.py:11-26 | The flag and derived-column positions used by the model name the intended columns. |
| Columns.RenameIsLowerCaseInjection | nba_stats/cond.py:51-66 | No two labels rename to the same column, and every target is its key in lower case. |
| Columns.PlusMinusPassesThrough | nba_stats/cond.py:35 | `+/-` has no rename entry and passes through unchanged, and it is itself an output column. |
| Columns.RenameTargetsFitLayout | nba_stats/cond.py:17-36 | A rename target is an output column exactly when it is not `fg`, `3pt` or `ft`. Every derived made/attempted/ratio column is an output column. |
| Columns.HeaderColsNotRenamed | nba_stats/cond.py:39-66 | Renaming leaves the header columns alone. |
| Columns.StatColsAreNotHeaderCols | nba_stats/cond.py:7-49 | No stat column repeats a header column, and no header column is a compound one. |
| Columns.HeaderColsDistinct | nba_stats/cond.py:7-49 | The header columns are distinct, and no output column is a compound one. |
| Columns.DerivedColsPlace | nba_stats/cond.py:18-26 | The derived columns sit exactly at the nine made/attempted/ratio positions. |
| Frame.Lookup | nba_stats/ESPN_NBA.py:278-286 | `df[name]` succeeds exactly when the name labels one column, and it yields that column's cell. |
| Frame.Assign | nba_stats/ESPN_NBA.py:278-286 | `df[name] = x` overwrites an existing column in place and appends a missing one. |
| Frame.Drop | nba_stats/ESPN_NBA.py:287-291 | No dropped label remains. |
| Frame.Project | nba_stats/ESPN_NBA.py:292 | `df[BOX_SCORE_COLS]` succeeds exactly when every column is found once, and it yields their cells in that order. |
| Frame.Rename | nba_stats/ESPN_NBA.py:277 | Renaming maps every label through `PLAYED_STATS_RENAME_COLS` and keeps the cells. |
| Frame.LookupAssignOther | nba_stats/ESPN_NBA.py:278-286 | Assigning one column does not change the lookup of another. |
| Frame.LookupDropOther | nba_stats/ESPN_NBA.py:287-291 | Dropping does not affect the lookup of a kept label. |
| Frame.OccurrencesAppend | nba_stats/ESPN_NBA.py:278-286 | An appended column adds one occurrence of its own label only. |
| Stats.CompoundOf | nba_stats/ESPN_NBA.py:278-283 | The counts read from a compound column are the split of its printed value. |
| Stats.StatRow | nba_stats/ESPN_NBA.py:261-292 | A stat line is laid out only when there is one value per label, and the row is as wide as `BOX_SCORE_COLS`. |
| Stats.SplitStepFacts | nba_stats/ESPN_NBA.py:278-283 | One split step stores the made and attempted counts and leaves every other label as it was. |
| Stats.RatioStepFacts | nba_stats/ESPN_NBA.py:284-286 | One ratio step stores the ratio of the two counts and leaves every other label as it was. |
| Stats.StatRowContents | nba_stats/ESPN_NBA.py:261-292 | The row holds the nine header cells first. Each plain stat column holds the value paired with the label that renames to it. The made, attempted and ratio columns of fg, 3pt and ft hold the split of the matching compound value. The fg, 3pt and ft labels are all present. |
| Stats.StatRowSucceeds | nba_stats/ESPN_NBA.py:261-292 | Conversely, clean labels with one value each, and compound values that split, always give a row. |
| Stats.SiteLabelsClean | nba_stats/cond.py:51-66 | The fourteen labels the rename table is written for (its keys `MIN` … `PTS` in order, with `+/-` where its entry is commented out) cover every plain stat column and every compound column once. The source does not list what the site sends; this list is reconstructed from the table. |
| Stats.SiteRowBuilt | nba_stats/ESPN_NBA.py:261-292 | Under that reconstructed label list, any fourteen values whose FG, 3PT and FT entries split make a row. |
| Header.QuarterScore | nba_stats/ESPN_NBA.py:205-208 | A quarter score is `int(linescores[i]['displayValue'])` and needs the entry to exist. |
| Header.Quarters | nba_stats/ESPN_NBA.py:205-215 | Exactly four quarter scores are read, and fewer than four line scores fail. |
| Header.ReadTeam | nba_stats/ESPN_NBA.py:202-215 | A team entry gives its side, decided by `isHome == True`, its abbreviation, its score and its four quarters. |
| Header.ScanTeams | nba_stats/ESPN_NBA.py:201-218 | The loop over `tms` completes exactly when every entry reads. |
| Header.ScanTeamsLast | nba_stats/ESPN_NBA.py:201-218 | The loop is one step per entry: the last entry updates what the earlier ones left. |
| Header.ScanTeamsWinner | nba_stats/ESPN_NBA.py:216-218 | The winner is unset exactly when no entry has a true `winner` key. Otherwise it is the abbreviation of the last such entry. |
| Header.ScanTeamsHome | nba_stats/ESPN_NBA.py:202-208 | The home side is unset exactly when no entry reads as home. Otherwise it is the side of the last home entry. |
| Header.ScanTeamsAway | nba_stats/ESPN_NBA.py:209-215 | The away side is unset exactly when no entry reads as away. Otherwise it is the side of the last away entry. |
| Header.Referees | nba_stats/ESPN_NBA.py:226-229 | Three referee names are read from the first three entries, and fewer than three fail. |
| Header.ReadHeader | nba_stats/ESPN_NBA.py:193-229 | A read header carries the game id, the sides and winner of the `tms` loop, and the three referees. |
| Header.ReadHeaderNeedsFullData | nba_stats/ESPN_NBA.py:201-229 | Reading succeeds only with at least three referees and at least four line scores for every team entry. |
| Rows.PlayedTest | nba_stats/ESPN_NBA.py:257-259 | A player played exactly when the raw stats form a non-empty list whose first element is an alphanumeric string, and then the stats are that list. A falsy value, or a non-alphanumeric first entry, means not played. |
| Rows.NullStats | nba_stats/ESPN_NBA.py:247 | A not-played row has 20 null stats. |
| Rows.MapRowsEach | nba_stats/ESPN_NBA.py:244 | The `enumerate` loop builds a row exactly when every element's row builds, and the row for position `i` is the `i`-th row. |
| Rows.PlayerRowsEach | nba_stats/ESPN_NBA.py:244-304 | There is one player row per player, in the order of the combined list. |
| Rows.LabelList | nba_stats/ESPN_NBA.py:239-241 | The labels are the bench table's `lbls` list of strings, in order. |
| Rows.ValueList | nba_stats/ESPN_NBA.py:306-317 | The totals values are the `ttls` list itself. |
| Rows.Athletes | nba_stats/ESPN_NBA.py:244 | The players are the starters' athletes followed by the bench athletes. |
| Rows.ReadTables | nba_stats/ESPN_NBA.py:232-244 | A team's tables come from `stats[0..2]`. The labels come from the bench table, the players are starters then bench, and the totals are `stats[2]`. |
| Rows.PlayerRowContents | nba_stats/ESPN_NBA.py:244-304 | A not-played player's row is the header with `is_played` false, followed by 20 nulls. A played player's row is the stat row of their header and their stats. |
| Rows.PlayerRowFlags | nba_stats/ESPN_NBA.py:252-259 | `is_total` is false. `is_starter` holds exactly for positions below five. `is_played` holds exactly under the alphanumeric test. |
| Rows.TeamRowsContents | nba_stats/ESPN_NBA.py:232-339 | A team's rows are its player rows in order, followed by the totals row built from `ttls`. |
| Rows.TeamRowsBuilt | nba_stats/ESPN_NBA.py:232-339 | A team's rows are built exactly when its tables read, every player row builds and the totals row builds. |
| Rows.TeamRowsFlags | nba_stats/ESPN_NBA.py:244-339 | Exactly the last row of a team is a totals row, and player rows are starters exactly below position five. |
| Rows.TotalsRowFlag | nba_stats/ESPN_NBA.py:306-318 | The totals row carries the game, team id and abbreviation, has `is_total` true, and has null played, starter and player-identity cells. |
| Convert.ConcatRowsAppend | nba_stats/ESPN_NBA.py:232-339 | The team loop composes: converting two team lists one after the other is converting the joined list. |
| Convert.ConcatRowsBuilt | nba_stats/ESPN_NBA.py:232-339 | The team loop completes exactly when every element's rows build. |
| Convert.TeamsRowsBuilt | nba_stats/ESPN_NBA.py:232-339 | The same two facts for the teams of `bxscr`. |
| Convert.CountTotals | nba_stats/ESPN_NBA.py:306-339 | A frame has no more totals rows than rows. |
| Convert.CountTotalsAppend | nba_stats/ESPN_NBA.py:336-339 | The totals rows of concatenated frames add up. |
| Convert.TeamRowsOneTotal | nba_stats/ESPN_NBA.py:244-339 | A team contributes exactly one totals row, its last, and every row has the layout's width. |
| Convert.ConcatRowsShape | nba_stats/ESPN_NBA.py:232-339 | Elements that each give one totals row give one totals row per element. |
| Convert.TeamsRowsShape | nba_stats/ESPN_NBA.py:232-339 | The frame has exactly one totals row per team, and every row is 29 cells wide. |
| Convert.Convert | nba_stats/ESPN_NBA.py:176-193 | An empty payload list raises "Not Existed Jsons". A non-dictionary first payload raises a type error. A first payload without `page` raises its own error. |
| Convert.ConvertContents | nba_stats/ESPN_NBA.py:176-339 | A converted frame depends on the first payload alone: its game package has a readable header, and its `bxscr` teams give the rows, with one totals row per team. |
| Convert.ConvertBuilt | nba_stats/ESPN_NBA.py:176-339 | Conversely, a first payload with a readable game package and convertible teams is converted, whatever payloads follow it. |
| Convert.Handle | nba_stats/ESPN_NBA.py:346-359 | A missing response raises. A response that is not ok does nothing, and it is the only case that builds no frame. An ok response yields the conversion of its extracted payloads when both steps succeed, and otherwise raises the error of the first step that fails. |
| Convert.CrawlBoxScore | nba_stats/ESPN_NBA.py:341-359 | An invalid identifier raises the `get_url` error before anything is fetched. Otherwise the response for the game's box-score address is handled. |
| Convert.NoPayloadNoFrame | nba_stats/ESPN_NBA.py:135-178 | A page without a matching script reaches the conversion with no payload and raises "Not Existed Jsons". |

## Left out

- The HTTP session, the adapter pool and the request (`nba_stats/ESPN_NBA.py:50-54`, `76-91`) are network I/O. The crawl takes the response of the address as a parameter (`fetch`). On a fresh crawler object a request that raised leaves no response (`Unset`), and reading `self.req.ok` then raises. On a reused crawler object `_get_req` assigns `self.req` only when the request returns, so a raised request leaves the previous game's response in place and the crawl handles it again; `fetch` is unconstrained and may return that stale response, but the model does not name the case.
- The swallowed exceptions of `_get_req`, and the `ResultByTagsNotExistedError` that is built but never raised, have no effect, and the model gives them none. A page without scripts therefore yields an empty payload list, and the conversion raises "Not Existed Jsons" (`Convert.NoPayloadNoFrame`).
- BeautifulSoup parsing and `find_all` (`nba_stats/ESPN_NBA.py:93-123`) are a foreign library. The script bodies are an input sequence, where `None` stands for a tag without a single text child. The constant arguments `'script'` and `'text/javascript'` always pass the argument checks.
- `json.loads` is a foreign call. It is a parameter that returns a document, or nothing where it would raise. Its raising is not caught, so one undecodable capture aborts the whole extraction (`Payload.ExtractPayloads` fails).
- The arguments of `_get_json_by_compile` are the constant pattern and `re.DOTALL`, so its argument checks always pass. The pattern is modelled as the string function `Anchor.Capture`.
- Percentages are `round(m / a * 100, 2)` in floating point. Each is kept as its pair of counts, `Pct(made, attempted)`. A zero attempt count is divided anyway: pandas gives NaN for `0/0` and inf for `m/0`, and `round` keeps both. `Pct(0, 0)` stands for that NaN and `Pct(m, 0)` with `m > 0` for inf.
- `self.box_score_df` is an attribute updated in place. `_convert_to_dataframe` resets it (`nba_stats/ESPN_NBA.py:191`) only after the checks of lines 177-188, then concatenates each row or row block as it is built (lines 293-296, 301-304 and 336-339). The model returns the frame instead. So it does not keep the partial frame that a raise part-way through the teams or players leaves in the attribute. Nor does it keep the previous game's frame, which a reused crawler still holds after a response that is not ok or a raise before line 191. `Failure` and `Success(None)` stand for those outcomes.
- The pandas mechanics are reduced to a one-row frame of labelled cells. `append`, `concat` and the empty frames of `BOX_SCORE_COLS` become sequence operations.
- JSON numbers are integers. Floats and their `str()` forms are not modelled.
- The game header values (`dt`, `seasonType`, `attnd` and so on) are read only to keep their failure conditions. The source discards them, and so does `Convert.Convert`.
- Rows.PlayedTest: `isalnum` is the ASCII test. Python's test also accepts other Unicode letters and digits.
- Json.IntOfString: `int()` accepts only ASCII digit strings here. Python also accepts surrounding whitespace, a sign, underscores, and non-ASCII Unicode decimal digits such as `٣`.
- Rows.LabelList: labels must be strings. A list of non-string labels fails in the model, whereas pandas would accept it.
- Stats.StatRow: a label that occurs twice after renaming makes the lookups fail. For a compound label (`FG`, `3PT`, `FT`) the source fails too, though with a different error: `played_stats_df['fg']` is then a DataFrame, which has no `.map` in the pandas versions that still have `DataFrame.append` (`nba_stats/ESPN_NBA.py:275`). For a plain label the source does not fail: the selection at `nba_stats/ESPN_NBA.py:292` gives `stats_df` two columns of that name.
- Stats.CompoundOf: a compound column holding a flag or a null (which cannot come from a payload list) fails as a type error. Python would print it with `str()` first.
- `nba_stats/Nba.py` is an inconsistent duplicate of the scraper that is not used by the box-score crawl. `nba_stats/test.py` targets it, although its `__init__` and `_get_url` (`nba_stats/Nba.py:40-50`) check nothing. The template and error expectations of test.py all agree with `get_url`, and `Url.BoxScoreUrlExample` states them.

=== FILE: anchor.dfy ===
/** The payload pattern `window\['__espnfitt__'\]\s*=\s*(\{.*\});` searched with DOTALL:
    the literal anchor, optional whitespace, '=', optional whitespace, then a capture that
    opens with '{' and runs greedily to the last '}' that is directly followed by ';'. */
module Anchor {
  import opened Wrappers

  const AnchorText: string := "window['__espnfitt__']"

  /** The whitespace `\s` accepts in a str pattern: the characters for which `str.isspace`
      holds, that is the ASCII controls 9-13 and 28-31, the space, NEL, and the Unicode space
      and line/paragraph separators. */
  predicate IsWs(c: char) {
    var n := c as int;
    || 9 <= n <= 13 || 28 <= n <= 32 || n == 0x85 || n == 0xA0 || n == 0x1680
    || 0x2000 <= n <= 0x200A || n == 0x2028 || n == 0x2029 || n == 0x202F || n == 0x205F
    || n == 0x3000
  }

  /** `}` at `k` directly followed by `;`. */
  predicate IsClose(s: string, k: int) {
    0 <= k && k + 1 < |s| && s[k] == '}' && s[k + 1] == ';'
  }

  predicate AllWs(s: string, lo: int, hi: int)
    requires 0 <= lo <= hi <= |s|
  {
    forall t :: lo <= t < hi ==> IsWs(s[t])
  }

  /** One way the pattern can match `s` starting at `p`: the '=' is at `eq`, the capture's
      '{' at `open` and its '}' at `close`. */
  ghost predicate Matches(s: string, p: int, eq: int, open: int, close: int) {
    && 0 <= p && p + |AnchorText| <= eq < open < close
    && close + 1 < |s|
    && s[p..p + |AnchorText|] == AnchorText
    && AllWs(s, p + |AnchorText|, eq) && s[eq] == '='
    && AllWs(s, eq + 1, open) && s[open] == '{'
    && IsClose(s, close)
  }

  /** The positions of one match. */
  datatype Span = Span(eq: nat, open: nat, close: nat)

  /** First index at or after `i` that is not whitespace (or the end). */
  function SkipWs(s: string, i: nat): (j: nat)
    requires i <= |s|
    ensures i <= j <= |s|
    ensures AllWs(s, i, j)
    ensures j == |s| || !IsWs(s[j])
    decreases |s| - i
  {
    if i == |s| || !IsWs(s[i]) then i else SkipWs(s, i + 1)
  }

  /** The greatest `k` in `[lo, hi)` with `IsClose(s, k)`: what the greedy `.*` settles on. */
  function LastClose(s: string, lo: nat, hi: nat): (r: Option<nat>)
    requires hi <= |s|
    ensures r.Some? ==> lo <= r.value < hi && IsClose(s, r.value)
    ensures r.Some? ==> forall k :: r.value < k < hi ==> !IsClose(s, k)
    ensures r.None? ==> forall k :: lo <= k < hi ==> !IsClose(s, k)
    decreases hi
  {
    if hi <= lo then None
    else if IsClose(s, hi - 1) then Some(hi - 1)
    else LastClose(s, lo, hi - 1)
  }

  /** `pattern.match` at position `p`. */
  function MatchAt(s: string, p: nat): (r: Option<Span>)
    requires p <= |s|
    ensures r.Some? ==> Matches(s, p, r.value.eq, r.value.open, r.value.close)
    ensures r.Some? ==> forall k :: r.value.close < k < |s| ==> !IsClose(s, k)
  {
    if |s| - p < |AnchorText| || s[p..p + |AnchorText|] != AnchorText then None
    else
      var eq := SkipWs(s, p + |AnchorText|);
      if eq == |s| || s[eq] != '=' then None
      else
        var open := SkipWs(s, eq + 1);
        if open == |s| || s[open] != '{' then None
        else
          match LastClose(s, open + 1, |s|)
          case None => None
          case Some(close) => Some(Span(eq, open, close))
  }

  /** The whitespace run before a non-whitespace character is the whole run `SkipWs` skips. */
  lemma {:induction false} SkipWsStopsAt(s: string, i: nat, j: nat)
    requires i <= j < |s|
    requires AllWs(s, i, j) && !IsWs(s[j])
    ensures SkipWs(s, i) == j
    decreases j - i
  {
    if i < j {
      assert IsWs(s[i]);
      SkipWsStopsAt(s, i + 1, j);
    }
  }

  /** Whenever the pattern can match at `p`, `MatchAt` finds a match there: with the same
      '=' and '{' (whitespace leaves no choice) and the latest possible closing '}'. */
  lemma MatchAtComplete(s: string, p: nat, eq: nat, open: nat, close: nat)
    requires Matches(s, p, eq, open, close)
    ensures MatchAt(s, p).Some?
    ensures MatchAt(s, p).value.eq == eq && MatchAt(s, p).value.open == open
    ensures close <= MatchAt(s, p).value.close
  {
    assert s[eq] == '=' && !IsWs(s[eq]);
    SkipWsStopsAt(s, p + |AnchorText|, eq);
    assert s[open] == '{' && !IsWs(s[open]);
    SkipWsStopsAt(s, eq + 1, open);
  }

  /** The leftmost match: `pattern.search` from position `from`. */
  datatype Found = Found(start: nat, span: Span)

  function Search(s: string, from: nat): (r: Option<Found>)
    requires from <= |s|
    ensures r.Some? ==> from <= r.value.start <= |s| && MatchAt(s, r.value.start) == Some(r.value.span)
    ensures r.Some? ==> forall q :: from <= q < r.value.start ==> MatchAt(s, q).None?
    ensures r.None? ==> forall q :: from <= q <= |s| ==> MatchAt(s, q).None?
    decreases |s| - from
  {
    match MatchAt(s, from)
    case Some(span) => Some(Found(from, span))
    case None =>
      if from == |s| then None
      else
        var r := Search(s, from + 1);
        NoMatchBefore(s, from, r);
        r
  }

  /** No match at `from` extends the match-free stretch of the search from `from + 1`. */
  lemma NoMatchBefore(s: string, from: nat, r: Option<Found>)
    requires from < |s| && MatchAt(s, from).None?
    requires r.Some? ==> from + 1 <= r.value.start <= |s|
    requires r.Some? ==> forall q :: from + 1 <= q < r.value.start ==> MatchAt(s, q).None?
    requires r.None? ==> forall q :: from + 1 <= q <= |s| ==> MatchAt(s, q).None?
    ensures r.Some? ==> forall q :: from <= q < r.value.start ==> MatchAt(s, q).None?
    ensures r.None? ==> forall q :: from <= q <= |s| ==> MatchAt(s, q).None?
  {
  }

  /** Text that opens with '{' and closes with '}'. */
  predicate Braced(c: string) {
    |c| >= 2 && c[0] == '{' && c[|c| - 1] == '}'
  }

  /** Capture group 1 of `pattern.search(s)`: the text from the '{' through the last '}'
      that is directly followed by ';', of the leftmost match. */
  function Capture(s: string): (r: Option<string>)
    ensures r.Some? ==> Braced(r.value)
    ensures r.Some? ==> exists p, eq, open, close :: Matches(s, p, eq, open, close) && r.value == s[open..close + 1]
  {
    match Search(s, 0)
    case None => None
    case Some(f) =>
      assert Matches(s, f.start, f.span.eq, f.span.open, f.span.close);
      Some(s[f.span.open..f.span.close + 1])
  }

  /** The leftmost match's capture is directly followed by ';' in the body. */
  lemma CaptureFollowedBySemicolon(s: string, f: Found)
    requires Search(s, 0) == Some(f)
    ensures f.span.close + 1 < |s| && s[f.span.close + 1] == ';'
    ensures Capture(s) == Some(s[f.span.open..f.span.close + 1])
  {
    SearchCloses(s, f);
  }

  lemma SearchCloses(s: string, f: Found)
    requires Search(s, 0) == Some(f)
    ensures IsClose(s, f.span.close)
  {
    assert MatchAt(s, f.start) == Some(f.span);
  }

  /** No match starts before the one `Search` reports, and its capture reaches the last
      "};" of the body. */
  lemma CaptureIsLeftmostGreedy(s: string, f: Found)
    requires Search(s, 0) == Some(f)
    ensures forall k :: f.span.close < k < |s| ==> !IsClose(s, k)
    ensures forall q :: 0 <= q < f.start ==> MatchAt(s, q).None?
  {
  }

  /** A body in which the pattern can match anywhere yields a capture. */
  lemma CaptureComplete(s: string, p: nat, eq: nat, open: nat, close: nat)
    requires Matches(s, p, eq, open, close)
    ensures Capture(s).Some?
  {
    MatchAtComplete(s, p, eq, open, close);
  }

  /** A body the pattern matches at its very start, with no "};" after the matched close,
      captures the text from the '{' through that close. */
  lemma CaptureAtStart(s: string, eq: nat, open: nat, close: nat)
    requires Matches(s, 0, eq, open, close)
    requires forall k :: close < k < |s| ==> !IsClose(s, k)
    ensures Capture(s) == Some(s[open..close + 1])
  {
    MatchAtComplete(s, 0, eq, open, close);
    assert MatchAt(s, 0) == Some(Span(eq, open, close));
  }

  /** The payload assignment of a box-score page yields its object literal. */
  lemma CaptureExample(s: string)
    requires s == "window['__espnfitt__'] = {\"page\":{}};"
    ensures Capture(s) == Some("{\"page\":{}}")
  {
    PageBodyShape(s);
    CaptureAtStart(s, 23, 25, 35);
  }

  lemma PageBodyShape(s: string)
    requires s == "window['__espnfitt__'] = {\"page\":{}};"
    ensures Matches(s, 0, 23, 25, 35)
    ensures forall k :: 35 < k < |s| ==> !IsClose(s, k)
    ensures s[25..36] == "{\"page\":{}}"
  {
    assert s[0..|AnchorText|] == AnchorText;
  }

  /** A no-break space before '=' is whitespace to `\s` as well. */
  lemma CaptureUnicodeSpaceExample(s: string)
    requires s == "window['__espnfitt__']\U{00A0}= {\"a\":1};"
    ensures Capture(s) == Some("{\"a\":1}")
  {
    SpacedBodyShape(s);
    CaptureAtStart(s, 23, 25, 31);
  }

  lemma SpacedBodyShape(s: string)
    requires s == "window['__espnfitt__']\U{00A0}= {\"a\":1};"
    ensures Matches(s, 0, 23, 25, 31)
    ensures forall k :: 31 < k < |s| ==> !IsClose(s, k)
    ensures s[25..32] == "{\"a\":1}"
  {
    assert s[0..|AnchorText|] == AnchorText;
    assert IsWs(s[22]);
  }
}

=== FILE: columns.dfy ===
/** The column constants of the box-score table: the output layout, the per-row header
    columns, and the renaming of the site's stat labels. */
module Columns {

  /** Every output row, in this column order: 9 header columns and 20 stat columns. */
  const BoxScoreCols: seq<string> := [
    "g_id", "t_id", "tm_abbrev", "is_total", "is_played", "is_starter", "p_id", "p_nm", "p_pos",
    "min", "fgr", "fgm", "fga", "3ptr", "3ptm", "3pta", "ftr", "ftm", "fta",
    "oreb", "dreb", "reb", "ast", "stl", "blk", "to", "pf", "+/-", "pts"
  ]

  /** The identity columns that precede the site's stat labels in every row. */
  const HeaderCols: seq<string> := [
    "g_id", "t_id", "tm_abbrev", "is_total", "is_played", "is_starter", "p_id", "p_nm", "p_pos"
  ]

  /** The site's upper-case stat labels and the column names they become; `+/-` has no entry. */
  const RenameCols: map<string, string> := map[
    "MIN" := "min", "FG" := "fg", "3PT" := "3pt", "FT" := "ft", "OREB" := "oreb",
    "DREB" := "dreb", "REB" := "reb", "AST" := "ast", "STL" := "stl", "BLK" := "blk",
    "TO" := "to", "PF" := "pf", "PTS" := "pts"
  ]

  /** The "made-attempted" columns that are split and then dropped. */
  const CompoundCols: seq<string> := ["fg", "3pt", "ft"]

  /** The columns computed from the compound ones: ratio, made, attempted for each. */
  const DerivedCols: seq<string> := ["fgm", "fga", "3ptm", "3pta", "ftm", "fta", "fgr", "3ptr", "ftr"]

  /** The number of null stat cells in the row of a player who did not play. */
  const NullStatCount: nat := 20

  /** Positions of the header columns in `BoxScoreCols`. */
  const IsTotalIdx: nat := 3
  const IsPlayedIdx: nat := 4
  const IsStarterIdx: nat := 5

  /** Positions of the derived columns in `BoxScoreCols`. */
  const FgrIdx: nat := 10
  const FgmIdx: nat := 11
  const FgaIdx: nat := 12
  const TprIdx: nat := 13
  const TpmIdx: nat := 14
  const TpaIdx: nat := 15
  const FtrIdx: nat := 16
  const FtmIdx: nat := 17
  const FtaIdx: nat := 18

  /** The column a site label ends up in: renamed when it has an entry, unchanged otherwise. */
  function Renamed(lbl: string): (r: string)
    ensures lbl in RenameCols ==> r == RenameCols[lbl]
    ensures lbl !in RenameCols ==> r == lbl
  {
    if lbl in RenameCols then RenameCols[lbl] else lbl
  }

  function LowerChar(c: char): char {
    if 'A' <= c <= 'Z' then (c as int + 32) as char else c
  }

  function Lower(s: string): (r: string)
    ensures |r| == |s|
    ensures forall i :: 0 <= i < |s| ==> r[i] == LowerChar(s[i])
  {
    seq(|s|, i requires 0 <= i < |s| => LowerChar(s[i]))
  }

  /** The row layout starts with the header columns. */
  lemma HeaderColsArePrefix()
    ensures |HeaderCols| == 9
    ensures HeaderCols == BoxScoreCols[..|HeaderCols|]
    ensures forall k :: 0 <= k < |HeaderCols| ==> BoxScoreCols[k] == HeaderCols[k]
    ensures forall k :: 0 <= k < |HeaderCols| ==> HeaderCols[k] !in DerivedCols
  {
  }

  /** 29 distinct column names: 9 header columns and exactly as many stat columns as a
      not-played row has nulls. */
  lemma BoxScoreColsLayout()
    ensures |BoxScoreCols| == 29
    ensures |BoxScoreCols| == |HeaderCols| + NullStatCount
    ensures forall i, j :: 0 <= i < j < |BoxScoreCols| ==> BoxScoreCols[i] != BoxScoreCols[j]
  {
  }

  /** The index constants point at the columns they are named after. */
  lemma IndexConstantsName()
    ensures BoxScoreCols[IsTotalIdx] == "is_total" && BoxScoreCols[IsPlayedIdx] == "is_played"
    ensures BoxScoreCols[IsStarterIdx] == "is_starter"
    ensures BoxScoreCols[FgrIdx] == "fgr" && BoxScoreCols[FgmIdx] == "fgm" && BoxScoreCols[FgaIdx] == "fga"
    ensures BoxScoreCols[TprIdx] == "3ptr" && BoxScoreCols[TpmIdx] == "3ptm" && BoxScoreCols[TpaIdx] == "3pta"
    ensures BoxScoreCols[FtrIdx] == "ftr" && BoxScoreCols[FtmIdx] == "ftm" && BoxScoreCols[FtaIdx] == "fta"
  {
  }

  /** Renaming never merges two labels, and each target is its label in lower case. */
  lemma RenameIsLowerCaseInjection()
    ensures forall k1, k2 :: k1 in RenameCols && k2 in RenameCols && k1 != k2 ==> RenameCols[k1] != RenameCols[k2]
    ensures forall k :: k in RenameCols ==> RenameCols[k] == Lower(k)
  {
    RenameInjective();
    RenameLowers();
  }

  lemma RenameInjective()
    ensures forall k1, k2 :: k1 in RenameCols && k2 in RenameCols && k1 != k2 ==> RenameCols[k1] != RenameCols[k2]
  {
  }

  lemma RenameLowers()
    ensures forall k :: k in RenameCols ==> RenameCols[k] == Lower(k)
  {
  }

  /** The plus/minus label has no rename entry, passes through, and is an output column. */
  lemma PlusMinusPassesThrough()
    ensures "+/-" !in RenameCols
    ensures Renamed("+/-") == "+/-"
    ensures "+/-" in BoxScoreCols
  {
  }

  /** A rename target is an output column exactly when it is not one of the compound columns;
      the columns derived from those are output columns. */
  lemma RenameTargetsFitLayout()
    ensures forall k :: k in RenameCols ==> (RenameCols[k] in BoxScoreCols <==> RenameCols[k] !in CompoundCols)
    ensures forall c :: c in DerivedCols ==> c in BoxScoreCols
    ensures forall c :: c in CompoundCols ==> c in RenameCols.Values
  {
    RenameTargetsKeptOrSplit();
    DerivedColsKept();
    CompoundColsRenamed();
  }

  lemma RenameTargetsKeptOrSplit()
    ensures forall k :: k in RenameCols ==> (RenameCols[k] in BoxScoreCols <==> RenameCols[k] !in CompoundCols)
  {
  }

  lemma DerivedColsKept()
    ensures forall c :: c in DerivedCols ==> c in BoxScoreCols
  {
  }

  lemma CompoundColsRenamed()
    ensures forall c :: c in CompoundCols ==> c in RenameCols.Values
  {
    assert RenameCols["FG"] == "fg" && RenameCols["3PT"] == "3pt" && RenameCols["FT"] == "ft";
  }

  /** Header labels are never renamed, so they keep their place in a renamed frame. */
  lemma HeaderColsNotRenamed()
    ensures forall k :: 0 <= k < |HeaderCols| ==> Renamed(HeaderCols[k]) == HeaderCols[k]
  {
  }

  /** No output column past the header ones, and no compound column, is a header name. */
  lemma StatColsAreNotHeaderCols()
    ensures forall k, j :: |HeaderCols| <= k < |BoxScoreCols| && 0 <= j < |HeaderCols| ==> BoxScoreCols[k] != HeaderCols[j]
    ensures forall j :: 0 <= j < |HeaderCols| ==> HeaderCols[j] !in CompoundCols
    ensures forall j :: 0 <= j < |HeaderCols| ==> HeaderCols[j] != "fg" && HeaderCols[j] != "3pt" && HeaderCols[j] != "ft"
  {
  }

  /** The derived columns are none of the compound ones. */
  lemma DerivedOutsideCompound()
    ensures forall k :: k in {FgmIdx, FgaIdx, FgrIdx, TpmIdx, TpaIdx, TprIdx, FtmIdx, FtaIdx, FtrIdx} ==>
              k < |BoxScoreCols| && BoxScoreCols[k] !in CompoundCols
  {
  }

  /** The header names are distinct, and no output column is a compound one. */
  lemma HeaderColsDistinct()
    ensures forall i, j :: 0 <= i < j < |HeaderCols| ==> HeaderCols[i] != HeaderCols[j]
    ensures forall k :: 0 <= k < |BoxScoreCols| ==> BoxScoreCols[k] !in CompoundCols
  {
  }

  /** The derived columns sit between the minutes column and the rebound columns. */
  lemma DerivedColsPlace(k: nat)
    requires k < |BoxScoreCols| && BoxScoreCols[k] in DerivedCols
    ensures k == FgrIdx || k == FgmIdx || k == FgaIdx || k == TprIdx || k == TpmIdx || k == TpaIdx ||
            k == FtrIdx || k == FtmIdx || k == FtaIdx
  {
  }
}

=== FILE: compound.dfy ===
/** The "made-attempted" stat strings: `str(x).split('-')`, fields 0 and 1 through `int()`. */
module Compound {
  import opened Wrappers
  import opened Errors
  import Digits
  import Json

  /** `s.split(sep)`: the maximal pieces between separators, empty ones included. */
  function SplitOn(s: string, sep: char): (fields: seq<string>)
    ensures |fields| >= 1
    ensures forall i :: 0 <= i < |fields| ==> sep !in fields[i]
  {
    if |s| == 0 then [""]
    else
      var rest := SplitOn(s[1..], sep);
      if s[0] == sep then [""] + rest
      else [[s[0]] + rest[0]] + rest[1..]
  }

  /** `sep.join(fields)`. */
  function Join(fields: seq<string>, sep: char): string
    requires |fields| >= 1
  {
    if |fields| == 1 then fields[0] else fields[0] + [sep] + Join(fields[1..], sep)
  }

  /** Splitting loses nothing: joining the pieces restores the string. */
  lemma {:induction false} SplitJoinRoundTrip(s: string, sep: char)
    ensures Join(SplitOn(s, sep), sep) == s
  {
    if |s| > 0 {
      var rest := SplitOn(s[1..], sep);
      SplitJoinRoundTrip(s[1..], sep);
      if s[0] == sep {
        assert ([""] + rest)[1..] == rest;
      } else {
        var fs := [[s[0]] + rest[0]] + rest[1..];
        if |rest| == 1 {
          assert Join(fs, sep) == [s[0]] + rest[0];
        } else {
          assert fs[1..] == rest[1..];
          assert Join(fs, sep) == [s[0]] + (rest[0] + [sep] + Join(rest[1..], sep));
        }
        assert s == [s[0]] + s[1..];
      }
    }
  }

  /** A string without the separator is a single piece. */
  lemma {:induction false} SplitWithoutSep(s: string, sep: char)
    requires sep !in s
    ensures SplitOn(s, sep) == [s]
  {
    if |s| > 0 {
      assert s[1..] == s[..][1..];
      assert sep !in s[1..] by {
        forall c | c in s[1..] ensures c != sep {
          var i :| 0 <= i < |s[1..]| && s[1..][i] == c;
          assert s[i + 1] == c;
        }
      }
      SplitWithoutSep(s[1..], sep);
      assert [s[0]] + s[1..] == s;
    }
  }

  /** A piece without the separator, then the separator, splits off in front. */
  lemma {:induction false} SplitAfterField(x: string, sep: char, rest: string)
    requires sep !in x
    ensures SplitOn(x + [sep] + rest, sep) == [x] + SplitOn(rest, sep)
  {
    var s := x + [sep] + rest;
    if |x| == 0 {
      assert s[0] == sep && s[1..] == rest;
    } else {
      assert s[0] == x[0];
      assert s[1..] == x[1..] + [sep] + rest;
      assert sep !in x[1..] by {
        forall c | c in x[1..] ensures c != sep {
          var i :| 0 <= i < |x[1..]| && x[1..][i] == c;
          assert x[i + 1] == c;
        }
      }
      SplitAfterField(x[1..], sep, rest);
      assert [x[0]] + x[1..] == x;
    }
  }

  /** The made and attempted counts of a compound stat value, with the exception Python
      raises on the way: field 0 goes through `int()` before field 1 is looked up. */
  function SplitCompound(s: string): (r: Result<(int, int), Error>)
    ensures r.Success? ==> r.value.0 >= 0 && r.value.1 >= 0
    ensures r.Success? <==>
              var fs := SplitOn(s, '-');
              |fs| >= 2 && |fs[0]| > 0 && Digits.AllDigits(fs[0]) && |fs[1]| > 0 && Digits.AllDigits(fs[1])
    ensures r.Success? ==> Digits.ParseDecimal(SplitOn(s, '-')[0]) == Some(r.value.0)
    ensures r.Success? ==> Digits.ParseDecimal(SplitOn(s, '-')[1]) == Some(r.value.1)
  {
    var fs := SplitOn(s, '-');
    var made :- Json.IntOfString(fs[0]);
    if |fs| < 2 then Failure(IndexOutOfRange(1))
    else
      var attempted :- Json.IntOfString(fs[1]);
      Success((made, attempted))
  }

  /** `str(x)` then the split, for a JSON cell value. */
  function SplitValue(v: Json.Json): Result<(int, int), Error> {
    SplitCompound(Json.Str(v))
  }

  /** Splitting undoes printing: "m-a" yields (m, a). */
  lemma CompoundRoundTrip(made: nat, attempted: nat)
    ensures SplitCompound(Digits.ShowNat(made) + "-" + Digits.ShowNat(attempted)) == Success((made, attempted))
  {
    var m := Digits.ShowNat(made);
    var a := Digits.ShowNat(attempted);
    Digits.DigitsHaveNoDash(m);
    Digits.DigitsHaveNoDash(a);
    SplitAfterField(m, '-', a);
    SplitWithoutSep(a, '-');
    assert m + "-" + a == m + ['-'] + a;
    Digits.ShowNatRoundTrip(made);
    Digits.ShowNatRoundTrip(attempted);
  }

  /** Fields after the second are ignored. */
  lemma ExtraFieldsIgnored(made: nat, attempted: nat, tail: string)
    ensures SplitCompound(Digits.ShowNat(made) + "-" + Digits.ShowNat(attempted) + "-" + tail)
            == Success((made, attempted))
  {
    var m := Digits.ShowNat(made);
    var a := Digits.ShowNat(attempted);
    Digits.DigitsHaveNoDash(m);
    Digits.DigitsHaveNoDash(a);
    assert m + "-" + a + "-" + tail == m + ['-'] + (a + ['-'] + tail);
    SplitAfterField(m, '-', a + ['-'] + tail);
    SplitAfterField(a, '-', tail);
    Digits.ShowNatRoundTrip(made);
    Digits.ShowNatRoundTrip(attempted);
  }

  /** A value with no separator fails: an IndexError for a number, a ValueError otherwise. */
  lemma NoSeparatorFails(s: string)
    requires '-' !in s
    ensures SplitCompound(s).Failure?
  {
    SplitWithoutSep(s, '-');
  }

  /** The examples of a made-attempted field: "7-12" and the zero-attempt "0-0". */
  lemma CompoundExamples()
    ensures SplitCompound("7-12") == Success((7, 12))
    ensures SplitCompound("0-0") == Success((0, 0))
  {
    CompoundRoundTrip(7, 12);
    CompoundRoundTrip(0, 0);
    assert Digits.ShowNat(7) == "7" && Digits.ShowNat(0) == "0";
    assert Digits.ShowNat(12) == Digits.ShowNat(1) + [Digits.DigitChar(2)] == "12";
    assert "7-12" == Digits.ShowNat(7) + "-" + Digits.ShowNat(12);
  }
}

=== FILE: convert.dfy ===
/** The whole box-score frame of a game, built from the first decoded payload, and the crawl
    that fetches the page, extracts the payloads and builds the frame. */
module Convert {
  import opened Wrappers
  import opened Errors
  import opened Json
  import opened Frame
  import opened Columns
  import opened Stats
  import Rows
  import Header
  import Url
  import Payload

  /** The rows of every element of `xs` concatenated in order, stopping at the first element
      whose rows cannot be built. */
  function ConcatRows(rowsOf: Json -> Result<seq<Row>, Error>, xs: seq<Json>): (r: Result<seq<Row>, Error>)
    decreases |xs|
  {
    if |xs| == 0 then Success([])
    else
      var first :- rowsOf(xs[0]);
      var rest :- ConcatRows(rowsOf, xs[1..]);
      Success(first + rest)
  }

  /** Concatenating the rows of two lists one after the other is concatenating the rows of
      the joined list. */
  lemma {:induction false} ConcatRowsAppend(rowsOf: Json -> Result<seq<Row>, Error>, a: seq<Json>, b: seq<Json>)
    ensures ConcatRows(rowsOf, a + b).Success? <==> ConcatRows(rowsOf, a).Success? && ConcatRows(rowsOf, b).Success?
    ensures ConcatRows(rowsOf, a + b).Success? ==>
              ConcatRows(rowsOf, a + b).value == ConcatRows(rowsOf, a).value + ConcatRows(rowsOf, b).value
    decreases |a|
  {
    if |a| == 0 {
      assert a + b == b;
    } else {
      assert (a + b)[0] == a[0];
      assert (a + b)[1..] == a[1..] + b;
      ConcatRowsAppend(rowsOf, a[1..], b);
      if ConcatRows(rowsOf, a + b).Success? {
        var first := rowsOf(a[0]).value;
        assert ConcatRows(rowsOf, a + b).value == first + ConcatRows(rowsOf, a[1..] + b).value;
        assert ConcatRows(rowsOf, a).value == first + ConcatRows(rowsOf, a[1..]).value;
      }
    }
  }

  /** The rows are built exactly when every element's rows are. */
  lemma {:induction false} ConcatRowsBuilt(rowsOf: Json -> Result<seq<Row>, Error>, xs: seq<Json>)
    ensures ConcatRows(rowsOf, xs).Success? <==> forall i :: 0 <= i < |xs| ==> rowsOf(xs[i]).Success?
    decreases |xs|
  {
    if |xs| > 0 {
      ConcatRowsBuilt(rowsOf, xs[1..]);
      assert forall i :: 1 <= i < |xs| ==> xs[1..][i - 1] == xs[i];
    }
  }

  /** The rows of every team of `bxscr`, team after team; the first team whose rows cannot be
      built aborts the conversion. */
  function TeamsRows(gid: Json, teams: seq<Json>): Result<seq<Row>, Error> {
    ConcatRows((team: Json) => Rows.TeamRows(gid, team), teams)
  }

  /** The teams are converted exactly when every team's rows can be built, and converting
      two lists of teams one after the other is converting their concatenation. */
  lemma TeamsRowsBuilt(gid: Json, a: seq<Json>, b: seq<Json>)
    ensures TeamsRows(gid, a).Success? <==> forall i :: 0 <= i < |a| ==> Rows.TeamRows(gid, a[i]).Success?
    ensures TeamsRows(gid, a + b).Success? <==> TeamsRows(gid, a).Success? && TeamsRows(gid, b).Success?
    ensures TeamsRows(gid, a + b).Success? ==>
              TeamsRows(gid, a + b).value == TeamsRows(gid, a).value + TeamsRows(gid, b).value
  {
    var rowsOf := (team: Json) => Rows.TeamRows(gid, team);
    ConcatRowsBuilt(rowsOf, a);
    ConcatRowsAppend(rowsOf, a, b);
  }

  /** A row of the frame is a team's totals row. */
  predicate IsTotalRow(row: Row) {
    |row| > IsTotalIdx && row[IsTotalIdx] == Flag(true)
  }

  /** The number of totals rows of a frame. */
  function CountTotals(rows: seq<Row>): (n: nat)
    ensures n <= |rows|
  {
    if |rows| == 0 then 0
    else (if IsTotalRow(rows[0]) then 1 else 0) + CountTotals(rows[1..])
  }

  lemma {:induction false} CountTotalsAppend(a: seq<Row>, b: seq<Row>)
    ensures CountTotals(a + b) == CountTotals(a) + CountTotals(b)
    decreases |a|
  {
    if |a| > 0 {
      assert (a + b)[0] == a[0];
      assert (a + b)[1..] == a[1..] + b;
      CountTotalsAppend(a[1..], b);
    } else {
      assert a + b == b;
    }
  }

  lemma {:induction false} CountTotalsNone(rows: seq<Row>)
    requires forall i :: 0 <= i < |rows| ==> !IsTotalRow(rows[i])
    ensures CountTotals(rows) == 0
    decreases |rows|
  {
    if |rows| > 0 {
      assert forall i :: 0 <= i < |rows| - 1 ==> rows[1..][i] == rows[i + 1];
      CountTotalsNone(rows[1..]);
    }
  }

  /** A team contributes exactly one totals row, its last one. */
  lemma TeamRowsOneTotal(gid: Json, team: Json, rows: seq<Row>)
    requires Rows.TeamRows(gid, team) == Success(rows)
    ensures CountTotals(rows) == 1
    ensures IsTotalRow(rows[|rows| - 1])
    ensures forall i :: 0 <= i < |rows| ==> |rows[i]| == |BoxScoreCols|
  {
    Rows.TeamRowsFlags(gid, team, rows);
    LastRowOnlyTotal(rows);
  }

  /** Rows of which only the last is flagged as a totals row hold one totals row. */
  lemma LastRowOnlyTotal(rows: seq<Row>)
    requires |rows| > 0
    requires forall i :: 0 <= i < |rows| ==> |rows[i]| == |BoxScoreCols| && rows[i][IsTotalIdx] == Flag(i == |rows| - 1)
    ensures CountTotals(rows) == 1
    ensures IsTotalRow(rows[|rows| - 1])
  {
    var front := rows[..|rows| - 1];
    assert forall i :: 0 <= i < |front| ==> front[i] == rows[i] && !IsTotalRow(front[i]);
    CountTotalsNone(front);
    assert rows == front + [rows[|rows| - 1]];
    CountTotalsAppend(front, [rows[|rows| - 1]]);
    assert CountTotals([rows[|rows| - 1]]) == 1 by {
      assert [rows[|rows| - 1]][1..] == [];
    }
  }

  /** Rows built from elements that each give one totals row hold one totals row per
      element. */
  lemma {:induction false} ConcatRowsShape(rowsOf: Json -> Result<seq<Row>, Error>, xs: seq<Json>, rows: seq<Row>)
    requires ConcatRows(rowsOf, xs) == Success(rows)
    requires forall i :: 0 <= i < |xs| && rowsOf(xs[i]).Success? ==>
               var part := rowsOf(xs[i]).value;
               CountTotals(part) == 1 && forall k :: 0 <= k < |part| ==> |part[k]| == |BoxScoreCols|
    ensures CountTotals(rows) == |xs|
    ensures forall i :: 0 <= i < |rows| ==> |rows[i]| == |BoxScoreCols|
    decreases |xs|
  {
    if |xs| > 0 {
      var first := rowsOf(xs[0]).value;
      var rest := ConcatRows(rowsOf, xs[1..]).value;
      assert rows == first + rest;
      assert forall i :: 1 <= i < |xs| ==> xs[1..][i - 1] == xs[i];
      ConcatRowsShape(rowsOf, xs[1..], rest);
      CountTotalsAppend(first, rest);
      assert forall i :: |first| <= i < |rows| ==> rows[i] == rest[i - |first|];
    }
  }

  /** The frame holds one totals row per team and every row has the layout's width. */
  lemma TeamsRowsShape(gid: Json, teams: seq<Json>, rows: seq<Row>)
    requires TeamsRows(gid, teams) == Success(rows)
    ensures CountTotals(rows) == |teams|
    ensures forall i :: 0 <= i < |rows| ==> |rows[i]| == |BoxScoreCols|
  {
    var rowsOf := (team: Json) => Rows.TeamRows(gid, team);
    forall i | 0 <= i < |teams| && rowsOf(teams[i]).Success?
      ensures var part := rowsOf(teams[i]).value;
              CountTotals(part) == 1 && forall k :: 0 <= k < |part| ==> |part[k]| == |BoxScoreCols|
    {
      TeamRowsOneTotal(gid, teams[i], rowsOf(teams[i]).value);
    }
    ConcatRowsShape(rowsOf, teams, rows);
  }

  /** `_convert_to_dataframe` (nba_stats/ESPN_NBA.py:176-339): the conversion of the decoded
      payloads into the box-score frame. Only the first payload is read; its `page` value
      holds the game package. The game header is read and its failures abort the conversion,
      but its values are not part of the frame. */
  function Convert(jsons: seq<Json>): (r: Result<seq<Row>, Error>)
    ensures |jsons| == 0 ==> r == Failure(NoJsons)
    ensures |jsons| > 0 && !jsons[0].JObj? ==> r.Failure? && r.error.WrongType?
    ensures |jsons| > 0 && jsons[0].JObj? && "page" !in jsons[0].fields ==> r == Failure(NoPageKey)
    ensures r.Success? ==> jsons[0].JObj? && "page" in jsons[0].fields
  {
    if |jsons| == 0 then Failure(NoJsons)
    else if !jsons[0].JObj? then Failure(WrongType("object has no attribute 'keys'"))
    else if "page" !in jsons[0].fields then Failure(NoPageKey)
    else
      var page := jsons[0].fields["page"];
      var content :- GetKey(page, "content");
      var pkg :- GetKey(content, "gamepackage");
      var header :- Header.ReadHeader(pkg);
      var bxscr :- GetKey(pkg, "bxscr");
      var teams :- Iterate(bxscr);
      var rows :- TeamsRows(header.gid, teams);
      Success(rows)
  }

  /** `page['content']['gamepackage']` of the first payload. */
  function Package(first: Json): Json {
    Field(Field(Field(first, "page"), "content"), "gamepackage")
  }

  /** A converted frame is read from the first payload alone: its game package has a
      readable header and a `bxscr` list whose teams give the rows, one totals row per team,
      every row as wide as the layout. */
  lemma ConvertContents(jsons: seq<Json>, rows: seq<Row>)
    requires Convert(jsons) == Success(rows)
    ensures var pkg := Package(jsons[0]);
            Header.ReadHeader(pkg).Success? && Iterate(Field(pkg, "bxscr")).Success? &&
            TeamsRows(Field(Field(pkg, "gmStrp"), "gid"), Iterate(Field(pkg, "bxscr")).value) == Success(rows)
    ensures CountTotals(rows) == |Iterate(Field(Package(jsons[0]), "bxscr")).value|
    ensures forall i :: 0 <= i < |rows| ==> |rows[i]| == |BoxScoreCols|
  {
    var pkg := Package(jsons[0]);
    var teams := Iterate(Field(pkg, "bxscr")).value;
    TeamsRowsShape(Field(Field(pkg, "gmStrp"), "gid"), teams, rows);
  }

  /** Conversely, a first payload with a readable game package and convertible teams is
      converted, whatever payloads follow it. */
  lemma ConvertBuilt(jsons: seq<Json>)
    requires |jsons| > 0 && jsons[0].JObj? && "page" in jsons[0].fields
    requires var page := jsons[0].fields["page"];
             page.JObj? && "content" in page.fields &&
             var content := page.fields["content"];
             content.JObj? && "gamepackage" in content.fields
    requires var pkg := Package(jsons[0]);
             Header.ReadHeader(pkg).Success? && pkg.JObj? && "bxscr" in pkg.fields &&
             Iterate(pkg.fields["bxscr"]).Success? &&
             forall i :: 0 <= i < |Iterate(pkg.fields["bxscr"]).value| ==>
               Rows.TeamRows(Field(Field(pkg, "gmStrp"), "gid"), Iterate(pkg.fields["bxscr"]).value[i]).Success?
    ensures Convert(jsons).Success?
  {
    var pkg := Package(jsons[0]);
    TeamsRowsBuilt(Field(Field(pkg, "gmStrp"), "gid"), Iterate(pkg.fields["bxscr"]).value, []);
  }

  /** What `self.req` holds after the request: nothing when no request has returned on this
      crawler object (the exception is swallowed and `self.req` is never assigned), otherwise
      a response with its `ok` flag and the script elements of its page, as
      `find_all('script', type='text/javascript')` lists them. On a reused crawler a raised
      request leaves the previous response in place, which `fetch` may return as well. */
  datatype Response = Unset | Response(ok: bool, scripts: seq<Payload.Script>)

  /** The tail of `crawl_box_score` (nba_stats/ESPN_NBA.py:346-359), once the address is
      set: what the crawl makes of the stored response. A response that is not ok builds no
      frame (None): the crawler's `box_score_df` keeps whatever it held before, which is
      unset only on a fresh crawler. An ok one has its payloads extracted and converted into
      the frame, and a failure of either step is raised. */
  function Handle(resp: Response, parse: Payload.Parser): (r: Result<Option<seq<Row>>, Error>)
    ensures resp.Unset? ==> r == Failure(NoResponse)
    ensures resp.Response? && !resp.ok ==> r == Success(None)
    ensures r.Success? && r.value.Some? ==>
              resp.Response? && resp.ok && Payload.ExtractPayloads(resp.scripts, parse).Success? &&
              Convert(Payload.ExtractPayloads(resp.scripts, parse).value) == Success(r.value.value)
    ensures (resp.Response? && resp.ok && Payload.ExtractPayloads(resp.scripts, parse).Success? &&
             Convert(Payload.ExtractPayloads(resp.scripts, parse).value).Success?) ==> r.Success? && r.value.Some?
    ensures resp.Response? && resp.ok && Payload.ExtractPayloads(resp.scripts, parse).Failure? ==>
              r == Failure(Payload.ExtractPayloads(resp.scripts, parse).error)
    ensures resp.Response? && resp.ok && Payload.ExtractPayloads(resp.scripts, parse).Success? &&
            Convert(Payload.ExtractPayloads(resp.scripts, parse).value).Failure? ==>
              r == Failure(Convert(Payload.ExtractPayloads(resp.scripts, parse).value).error)
    ensures r == Success(None) <==> resp.Response? && !resp.ok
  {
    match resp
    case Unset => Failure(NoResponse)
    case Response(ok, scripts) =>
      if !ok then Success(None)
      else
        var jsons :- Payload.ExtractPayloads(scripts, parse);
        var rows :- Convert(jsons);
        Success(Some(rows))
  }

  /** `crawl_box_score` (nba_stats/ESPN_NBA.py:341-359): the box-score crawl of one game.
      `fetch` stands for the HTTP request of an address and `parse` for `json.loads`. An
      invalid identifier raises before anything is fetched; otherwise the box-score page of
      the game is fetched and handled. */
  function CrawlBoxScore(idx: Url.PyArg, fetch: string -> Response, parse: Payload.Parser): (r: Result<Option<seq<Row>>, Error>)
    ensures Url.GetUrl(idx, Url.Str("boxscore")).Failure? ==> r == Failure(Url.GetUrl(idx, Url.Str("boxscore")).error)
    ensures !(idx.Str? && idx.s != "") ==> r.Failure?
    ensures idx.Str? && idx.s != "" ==> r == Handle(fetch(Url.PageUrl("boxscore", idx.s)), parse)
  {
    var target :- Url.GetUrl(idx, Url.Str("boxscore"));
    assert target.url == Url.PageUrl("boxscore", idx.s);
    Handle(fetch(target.url), parse)
  }

  /** A page without a payload script yields no payload, and the conversion then reports the
      missing payloads. */
  lemma NoPayloadNoFrame(resp: Response, parse: Payload.Parser)
    requires resp.Response? && resp.ok && Payload.Captures(resp.scripts) == []
    ensures Handle(resp, parse) == Failure(NoJsons)
  {
    assert Payload.ExtractPayloads(resp.scripts, parse) == Success([]);
  }
}

=== FILE: digits.dfy ===
/** Decimal digit strings: Python's `int(str)` on plain digit strings, and its inverse `str(n)`. */
module Digits {
  import opened Wrappers

  predicate IsDigit(c: char) {
    '0' <= c <= '9'
  }

  predicate AllDigits(s: string) {
    forall i :: 0 <= i < |s| ==> IsDigit(s[i])
  }

  function DigitValue(c: char): (d: nat)
    requires IsDigit(c)
    ensures d < 10
  {
    c as int - '0' as int
  }

  function DigitChar(d: nat): (c: char)
    requires d < 10
    ensures IsDigit(c) && DigitValue(c) == d
  {
    ('0' as int + d) as char
  }

  /** The value of a digit string read most significant digit first. */
  function DecimalValue(s: string): nat
    requires AllDigits(s)
  {
    if |s| == 0 then 0 else DecimalValue(s[..|s| - 1]) * 10 + DigitValue(s[|s| - 1])
  }

  /** `int(s)` for a string: defined exactly on non-empty digit strings. */
  function ParseDecimal(s: string): (r: Option<nat>)
    ensures r.Some? <==> |s| > 0 && AllDigits(s)
    ensures r.Some? ==> r.value == DecimalValue(s)
  {
    if |s| > 0 && AllDigits(s) then Some(DecimalValue(s)) else None
  }

  /** `str(n)` for a non-negative integer: no leading zeros. */
  function ShowNat(n: nat): (s: string)
    ensures |s| > 0 && AllDigits(s)
    ensures s[0] == '0' ==> n == 0
  {
    if n < 10 then [DigitChar(n)] else ShowNat(n / 10) + [DigitChar(n % 10)]
  }

  /** `str(n)` for any integer. */
  function ShowInt(n: int): (s: string)
    ensures |s| > 0
    ensures (n < 0) <==> s[0] == '-'
  {
    if n < 0 then "-" + ShowNat(-n) else ShowNat(n)
  }

  /** Reading back what `ShowNat` prints gives the number printed. */
  lemma {:induction false} ShowNatRoundTrip(n: nat)
    ensures ParseDecimal(ShowNat(n)) == Some(n)
  {
    var s := ShowNat(n);
    if n < 10 {
      assert s[..0] == [];
    } else {
      ShowNatRoundTrip(n / 10);
      assert s[..|s| - 1] == ShowNat(n / 10);
      assert s[|s| - 1] == DigitChar(n % 10);
      assert DecimalValue(s) == (n / 10) * 10 + n % 10;
    }
  }

  /** A digit string contains no sign character. */
  lemma DigitsHaveNoDash(s: string)
    requires AllDigits(s)
    ensures '-' !in s
  {
  }
}

=== FILE: errors.dfy ===
/** The exceptions the box-score pipeline can raise, one constructor per distinguishable case. */
module Errors {

  datatype Error =
    /** `get_url`: ValueError("Missing idx") for a falsy identifier */
    | MissingIdx
    /** `get_url`: TypeError for a truthy identifier that is not a string */
    | IdxNotString
    /** `get_url`: ValueError("Missing page_typ") for a falsy page type */
    | MissingPageTyp
    /** `get_url`: TypeError for a truthy page type that is not a string */
    | PageTypNotString
    /** `crawl_box_score` reads `self.req` although no response was ever stored (AttributeError) */
    | NoResponse
    /** `json.loads` rejected a captured payload */
    | JsonDecodeFailed
    /** `_convert_to_dataframe`: ValueError("Not Existed Jsons") */
    | NoJsons
    /** `_convert_to_dataframe`: ValueError when the first payload has no `page` key */
    | NoPageKey
    /** KeyError on a dictionary lookup, or a column label missing from a frame */
    | KeyMissing(key: string)
    /** IndexError on a list or string subscript */
    | IndexOutOfRange(index: int)
    /** TypeError or AttributeError: the value does not have the expected shape */
    | WrongType(what: string)
    /** ValueError: `int()` of a non-numeric string, or a row whose length does not fit its columns */
    | BadValue(what: string)
}

=== FILE: frame.dfy ===
/** A one-row table as pandas holds it: an ordered list of labelled cells, where a label
    may occur more than once. Selecting a column needs its label exactly once. */
module Frame {
  import opened Wrappers
  import opened Errors
  import opened Json
  import Columns

  /** One table cell: a missing value (`None`/NaN), a flag, a value taken from the payload,
      a parsed count, or a percentage `round(made / attempted * 100, 2)` kept symbolic. */
  datatype Cell = Null | Flag(b: bool) | Val(v: Json) | Count(n: int) | Pct(made: int, attempted: int)

  datatype Column = Column(name: string, cell: Cell)

  type Frame = seq<Column>

  /** How many columns carry the label `name`. */
  function Occurrences(f: Frame, name: string): (n: nat)
    ensures n == 0 <==> forall j :: 0 <= j < |f| ==> f[j].name != name
    ensures n <= |f|
  {
    if |f| == 0 then 0
    else (if f[0].name == name then 1 else 0) + Occurrences(f[1..], name)
  }

  /** `df[name]` for a single-row frame: KeyError when absent; a label that occurs twice
      selects several columns, which the callers here cannot use. */
  function Lookup(f: Frame, name: string): (r: Result<Cell, Error>)
    ensures r.Success? <==> Occurrences(f, name) == 1
    ensures r.Success? ==> forall j :: 0 <= j < |f| && f[j].name == name ==> f[j].cell == r.value
    ensures Occurrences(f, name) == 0 ==> r == Failure(KeyMissing(name))
  {
    if |f| == 0 then Failure(KeyMissing(name))
    else if f[0].name == name then
      if Occurrences(f[1..], name) == 0 then Success(f[0].cell)
      else Failure(WrongType("duplicate column " + name))
    else Lookup(f[1..], name)
  }

  /** `df[name] = cell`: every column with that label is overwritten, or a new column is
      added at the end. */
  function Assign(f: Frame, name: string, cell: Cell): (g: Frame)
    ensures Occurrences(f, name) > 0 ==> |g| == |f|
    ensures Occurrences(f, name) > 0 ==> forall j :: 0 <= j < |f| ==>
              g[j].name == f[j].name && g[j].cell == (if f[j].name == name then cell else f[j].cell)
    ensures Occurrences(f, name) == 0 ==> g == f + [Column(name, cell)]
  {
    if Occurrences(f, name) > 0 then
      seq(|f|, j requires 0 <= j < |f| => if f[j].name == name then Column(name, cell) else f[j])
    else f + [Column(name, cell)]
  }

  /** `df.drop(names, axis=1)` for labels known to be present. */
  function Drop(f: Frame, names: seq<string>): (g: Frame)
    ensures forall j :: 0 <= j < |g| ==> g[j].name !in names
    ensures |g| <= |f|
  {
    if |f| == 0 then []
    else (if f[0].name in names then [] else [f[0]]) + Drop(f[1..], names)
  }

  /** `df[cols]`: the cells of the listed columns, in that order. */
  function Project(f: Frame, cols: seq<string>): (r: Result<seq<Cell>, Error>)
    ensures r.Success? <==> forall i :: 0 <= i < |cols| ==> Lookup(f, cols[i]).Success?
    ensures r.Success? ==> |r.value| == |cols|
    ensures r.Success? ==> forall i :: 0 <= i < |cols| ==> Lookup(f, cols[i]) == Success(r.value[i])
  {
    if |cols| == 0 then Success([])
    else
      var c :- Lookup(f, cols[0]);
      var rest :- Project(f, cols[1..]);
      Success([c] + rest)
  }

  /** `pd.Series(cells, index=names)`: labels and values paired by position. */
  function Zip(names: seq<string>, cells: seq<Cell>): (f: Frame)
    requires |names| == |cells|
    ensures |f| == |names|
    ensures forall j :: 0 <= j < |f| ==> f[j] == Column(names[j], cells[j])
  {
    seq(|names|, j requires 0 <= j < |names| => Column(names[j], cells[j]))
  }

  /** `df.rename(columns=PLAYED_STATS_RENAME_COLS)`. */
  function Rename(f: Frame): (g: Frame)
    ensures |g| == |f|
    ensures forall j :: 0 <= j < |f| ==> g[j] == Column(Columns.Renamed(f[j].name), f[j].cell)
  {
    seq(|f|, j requires 0 <= j < |f| => Column(Columns.Renamed(f[j].name), f[j].cell))
  }

  /** Occurrences depend on the labels only. */
  lemma {:induction false} OccurrencesSameNames(f: Frame, g: Frame, name: string)
    requires |f| == |g|
    requires forall j :: 0 <= j < |f| ==> f[j].name == g[j].name
    ensures Occurrences(f, name) == Occurrences(g, name)
  {
    if |f| > 0 {
      OccurrencesSameNames(f[1..], g[1..], name);
    }
  }

  /** Two frames with the same labels, agreeing on the cells labelled `name`, look `name`
      up alike. */
  lemma {:induction false} LookupAgree(f: Frame, g: Frame, name: string)
    requires |f| == |g|
    requires forall j :: 0 <= j < |f| ==> f[j].name == g[j].name
    requires forall j :: 0 <= j < |f| && f[j].name == name ==> f[j].cell == g[j].cell
    ensures Lookup(f, name) == Lookup(g, name)
  {
    if |f| > 0 {
      OccurrencesSameNames(f[1..], g[1..], name);
      LookupAgree(f[1..], g[1..], name);
    }
  }

  /** A column added at the end counts once more for its own label only. */
  lemma {:induction false} OccurrencesAppend(f: Frame, col: Column, name: string)
    ensures Occurrences(f + [col], name) == Occurrences(f, name) + (if col.name == name then 1 else 0)
  {
    if |f| == 0 {
      assert f + [col] == [col];
    } else {
      assert (f + [col])[1..] == f[1..] + [col];
      OccurrencesAppend(f[1..], col, name);
    }
  }

  /** A column added under another label does not disturb a lookup. */
  lemma {:induction false} LookupAppendOther(f: Frame, col: Column, name: string)
    requires col.name != name
    ensures Lookup(f + [col], name) == Lookup(f, name)
  {
    if |f| == 0 {
      assert f + [col] == [col];
    } else {
      assert (f + [col])[1..] == f[1..] + [col];
      OccurrencesAppend(f[1..], col, name);
      LookupAppendOther(f[1..], col, name);
    }
  }

  /** Assigning one label leaves the lookup of every other label as it was. */
  lemma LookupAssignOther(f: Frame, name: string, other: string, cell: Cell)
    requires name != other
    ensures Lookup(Assign(f, name, cell), other) == Lookup(f, other)
  {
    if Occurrences(f, name) > 0 {
      LookupAgree(Assign(f, name, cell), f, other);
    } else {
      LookupAppendOther(f, Column(name, cell), other);
    }
  }

  /** After an assignment, a successful lookup of that label reads the assigned cell, and
      it succeeds whenever the label occurred at most once before. */
  lemma LookupAssignSame(f: Frame, name: string, cell: Cell)
    ensures Lookup(Assign(f, name, cell), name).Success? ==> Lookup(Assign(f, name, cell), name) == Success(cell)
    ensures Occurrences(f, name) <= 1 ==> Lookup(Assign(f, name, cell), name) == Success(cell)
  {
    var g := Assign(f, name, cell);
    if Occurrences(f, name) > 0 {
      var j :| 0 <= j < |f| && f[j].name == name;
      assert g[j] == Column(name, cell);
      OccurrencesSameNames(f, g, name);
    } else {
      assert g[|f|] == Column(name, cell);
      OccurrencesAppend(f, Column(name, cell), name);
    }
  }

  /** Dropping labels leaves the lookup of every other label as it was. */
  lemma {:induction false} LookupDropOther(f: Frame, names: seq<string>, name: string)
    requires name !in names
    ensures Occurrences(Drop(f, names), name) == Occurrences(f, name)
    ensures Lookup(Drop(f, names), name) == Lookup(f, name)
  {
    if |f| > 0 {
      LookupDropOther(f[1..], names, name);
      if f[0].name !in names {
        assert ([f[0]] + Drop(f[1..], names))[1..] == Drop(f[1..], names);
      } else {
        assert Drop(f, names) == Drop(f[1..], names);
      }
    }
  }

  /** A successful lookup reads the cell of any column carrying the label. */
  lemma LookupReads(f: Frame, name: string, j: nat)
    requires j < |f| && f[j].name == name
    requires Lookup(f, name).Success?
    ensures Lookup(f, name) == Success(f[j].cell)
  {
  }

  /** A label carried by exactly one column occurs once. */
  lemma {:induction false} OccurrencesOne(f: Frame, j: nat, name: string)
    requires j < |f| && f[j].name == name
    requires forall k :: 0 <= k < |f| && k != j ==> f[k].name != name
    ensures Occurrences(f, name) == 1
  {
    if j == 0 {
      forall k | 0 <= k < |f[1..]| ensures f[1..][k].name != name {
        assert f[1..][k] == f[k + 1];
      }
    } else {
      forall k | 0 <= k < |f[1..]| && k != j - 1 ensures f[1..][k].name != name {
        assert f[1..][k] == f[k + 1];
      }
      OccurrencesOne(f[1..], j - 1, name);
    }
  }

  /** Assigning one label leaves the number of columns of every other label as it was. */
  lemma OccurrencesAssignOther(f: Frame, name: string, other: string, cell: Cell)
    requires name != other
    ensures Occurrences(Assign(f, name, cell), other) == Occurrences(f, other)
  {
    if Occurrences(f, name) > 0 {
      OccurrencesSameNames(Assign(f, name, cell), f, other);
    } else {
      OccurrencesAppend(f, Column(name, cell), other);
    }
  }
}

=== FILE: header.dfy ===
/** The game header read from `gmStrp` and `gmInfo`: both sides with their quarter scores,
    the winner when one is flagged, the venue and three referees. The source computes these
    values and then discards them, but every lookup can raise and so abort the conversion. */
module Header {
  import opened Wrappers
  import opened Errors
  import opened Json

  /** One team's line: abbreviation, final score and the four quarter scores. */
  datatype Side = Side(abbrev: Json, score: int, quarters: seq<int>)

  /** A team entry of `tms`, read: whether it is the home side, and its line. */
  datatype TeamLine = TeamLine(isHome: bool, side: Side)

  /** What the loop over `tms` leaves behind: the last home side, the last away side and the
      abbreviation of the last team flagged as winner. */
  datatype Sides = Sides(home: Option<Side>, away: Option<Side>, winner: Option<Json>)

  datatype GameHeader = GameHeader(
    gid: Json, date: Json, seasonType: Json, status: Json,
    home: Option<Side>, away: Option<Side>, winner: Option<Json>,
    attendance: Json, capacity: Json, venue: Json, city: Json, state: Json,
    referees: seq<Json>)

  /** `int(ls[i]['displayValue'])`. */
  function QuarterScore(ls: Json, i: nat): (r: Result<int, Error>)
    ensures r.Success? ==> ls.JArr? && i < |ls.elems|
    ensures r.Success? ==> Int(Field(ls.elems[i], "displayValue")) == r
  {
    var entry :- GetIndex(ls, i);
    var shown :- GetKey(entry, "displayValue");
    Int(shown)
  }

  /** The four quarter scores `linescores[0..3]`; a shorter list raises IndexError. */
  function Quarters(ls: Json): (r: Result<seq<int>, Error>)
    ensures r.Success? <==> forall i :: 0 <= i < 4 ==> QuarterScore(ls, i).Success?
    ensures r.Success? ==> ls.JArr? && |ls.elems| >= 4 && |r.value| == 4
    ensures r.Success? ==> forall i :: 0 <= i < 4 ==> Int(Field(ls.elems[i], "displayValue")) == Success(r.value[i])
    ensures ls.JArr? && |ls.elems| < 4 ==> r.Failure?
  {
    var q1 :- QuarterScore(ls, 0);
    var q2 :- QuarterScore(ls, 1);
    var q3 :- QuarterScore(ls, 2);
    var q4 :- QuarterScore(ls, 3);
    Success([q1, q2, q3, q4])
  }

  /** The body of the `tms` loop for one entry, before the winner test. */
  function ReadTeam(tm: Json): (r: Result<TeamLine, Error>)
    ensures r.Success? ==> tm.JObj? && "isHome" in tm.fields && "abbrev" in tm.fields
    ensures r.Success? ==> r.value.isHome == IsTrue(tm.fields["isHome"])
    ensures r.Success? ==> r.value.side.abbrev == tm.fields["abbrev"]
    ensures r.Success? ==> Int(Field(tm, "score")) == Success(r.value.side.score)
    ensures r.Success? ==> Quarters(Field(tm, "linescores")) == Success(r.value.side.quarters)
  {
    var isHome :- GetKey(tm, "isHome");
    var abbrev :- GetKey(tm, "abbrev");
    var scoreText :- GetKey(tm, "score");
    var score :- Int(scoreText);
    var ls :- GetKey(tm, "linescores");
    var quarters :- Quarters(ls);
    Success(TeamLine(IsTrue(isHome), Side(abbrev, score, quarters)))
  }

  /** `'winner' in tm.keys() and tm['winner'] == True`. */
  predicate WinnerFlag(tm: Json) {
    tm.JObj? && "winner" in tm.fields && IsTrue(tm.fields["winner"])
  }

  /** The entry is read as the home side. */
  ghost predicate HomeEntry(tm: Json) {
    ReadTeam(tm).Success? && ReadTeam(tm).value.isHome
  }

  /** The entry is read as the away side. */
  ghost predicate AwayEntry(tm: Json) {
    ReadTeam(tm).Success? && !ReadTeam(tm).value.isHome
  }

  /** The loop over `tms`, left to right; a later entry overwrites what an earlier one set. */
  function ScanTeams(tms: seq<Json>): (r: Result<Sides, Error>)
    ensures r.Success? <==> forall i :: 0 <= i < |tms| ==> ReadTeam(tms[i]).Success?
  {
    if |tms| == 0 then Success(Sides(None, None, None))
    else
      var front := tms[..|tms| - 1];
      var tm := tms[|tms| - 1];
      var acc :- ScanTeams(front);
      var line :- ReadTeam(tm);
      assert forall i :: 0 <= i < |front| ==> tms[i] == front[i];
      Success(Step(acc, tm, line))
  }

  /** One iteration of the `tms` loop. */
  function Step(acc: Sides, tm: Json, line: TeamLine): Sides {
    Sides(
      if line.isHome then Some(line.side) else acc.home,
      if line.isHome then acc.away else Some(line.side),
      if WinnerFlag(tm) then Some(line.side.abbrev) else acc.winner)
  }

  /** Unfolds one iteration of the loop. */
  lemma ScanTeamsLast(tms: seq<Json>)
    requires |tms| > 0 && ScanTeams(tms).Success?
    ensures ScanTeams(tms[..|tms| - 1]).Success? && ReadTeam(tms[|tms| - 1]).Success?
    ensures ScanTeams(tms).value ==
              Step(ScanTeams(tms[..|tms| - 1]).value, tms[|tms| - 1], ReadTeam(tms[|tms| - 1]).value)
  {
  }

  /** Entry `i` is the last entry of `tms` satisfying `WinnerFlag`. */
  ghost predicate LastWinner(tms: seq<Json>, i: int) {
    0 <= i < |tms| && WinnerFlag(tms[i]) && forall j :: i < j < |tms| ==> !WinnerFlag(tms[j])
  }

  lemma LastWinnerExtends(tms: seq<Json>, i: int)
    requires |tms| > 0 && !WinnerFlag(tms[|tms| - 1])
    requires LastWinner(tms[..|tms| - 1], i)
    ensures LastWinner(tms, i)
  {
    var front := tms[..|tms| - 1];
    forall j | i < j < |tms| ensures !WinnerFlag(tms[j]) {
      if j < |front| {
        assert tms[j] == front[j];
      }
    }
  }

  lemma NoWinnerExtends(tms: seq<Json>, front: seq<Json>)
    requires |tms| > 0 && front == tms[..|tms| - 1] && !WinnerFlag(tms[|tms| - 1])
    requires forall i :: 0 <= i < |front| ==> !WinnerFlag(front[i])
    ensures forall i :: 0 <= i < |tms| ==> !WinnerFlag(tms[i])
  {
    forall j | 0 <= j < |tms| ensures !WinnerFlag(tms[j]) {
      if j < |front| {
        assert tms[j] == front[j];
      }
    }
  }

  /** The winner is set exactly when some entry is flagged as winner, and it is the
      abbreviation of the last such entry. */
  lemma {:induction false} ScanTeamsWinner(tms: seq<Json>, sides: Sides)
    requires ScanTeams(tms) == Success(sides)
    ensures sides.winner.None? <==> forall i :: 0 <= i < |tms| ==> !WinnerFlag(tms[i])
    ensures sides.winner.Some? ==> exists i :: LastWinner(tms, i) && sides.winner.value == Field(tms[i], "abbrev")
  {
    if |tms| > 0 {
      var front, last := tms[..|tms| - 1], tms[|tms| - 1];
      ScanTeamsLast(tms);
      var acc, line := ScanTeams(front).value, ReadTeam(last).value;
      ScanTeamsWinner(front, acc);
      assert sides == Step(acc, last, line);
      if WinnerFlag(last) {
        assert LastWinner(tms, |tms| - 1);
        assert sides.winner.value == Field(tms[|tms| - 1], "abbrev");
      } else if sides.winner.Some? {
        var i :| LastWinner(front, i) && acc.winner.value == Field(front[i], "abbrev");
        LastWinnerExtends(tms, i);
        assert tms[i] == front[i];
      } else {
        NoWinnerExtends(tms, front);
      }
    }
  }

  /** Entry `i` is the last entry of `tms` satisfying `HomeEntry`. */
  ghost predicate LastHome(tms: seq<Json>, i: int) {
    0 <= i < |tms| && HomeEntry(tms[i]) && forall j :: i < j < |tms| ==> !HomeEntry(tms[j])
  }

  lemma LastHomeExtends(tms: seq<Json>, i: int)
    requires |tms| > 0 && !HomeEntry(tms[|tms| - 1])
    requires LastHome(tms[..|tms| - 1], i)
    ensures LastHome(tms, i)
  {
    var front := tms[..|tms| - 1];
    forall j | i < j < |tms| ensures !HomeEntry(tms[j]) {
      if j < |front| {
        assert tms[j] == front[j];
      }
    }
  }

  lemma NoHomeExtends(tms: seq<Json>, front: seq<Json>)
    requires |tms| > 0 && front == tms[..|tms| - 1] && !HomeEntry(tms[|tms| - 1])
    requires forall i :: 0 <= i < |front| ==> !HomeEntry(front[i])
    ensures forall i :: 0 <= i < |tms| ==> !HomeEntry(tms[i])
  {
    forall j | 0 <= j < |tms| ensures !HomeEntry(tms[j]) {
      if j < |front| {
        assert tms[j] == front[j];
      }
    }
  }

  /** The home side is set exactly when some entry reads as home, and it is the line of the
      last such entry. */
  lemma {:induction false} ScanTeamsHome(tms: seq<Json>, sides: Sides)
    requires ScanTeams(tms) == Success(sides)
    ensures sides.home.None? <==> forall i :: 0 <= i < |tms| ==> !HomeEntry(tms[i])
    ensures sides.home.Some? ==> exists i :: LastHome(tms, i) && sides.home.value == ReadTeam(tms[i]).value.side
  {
    if |tms| > 0 {
      var front, last := tms[..|tms| - 1], tms[|tms| - 1];
      ScanTeamsLast(tms);
      var acc, line := ScanTeams(front).value, ReadTeam(last).value;
      ScanTeamsHome(front, acc);
      assert sides == Step(acc, last, line);
      if HomeEntry(last) {
        assert LastHome(tms, |tms| - 1);
        assert sides.home.value == ReadTeam(tms[|tms| - 1]).value.side;
      } else if sides.home.Some? {
        var i :| LastHome(front, i) && acc.home.value == ReadTeam(front[i]).value.side;
        LastHomeExtends(tms, i);
        assert tms[i] == front[i];
      } else {
        NoHomeExtends(tms, front);
      }
    }
  }

  /** Entry `i` is the last entry of `tms` satisfying `AwayEntry`. */
  ghost predicate LastAway(tms: seq<Json>, i: int) {
    0 <= i < |tms| && AwayEntry(tms[i]) && forall j :: i < j < |tms| ==> !AwayEntry(tms[j])
  }

  lemma LastAwayExtends(tms: seq<Json>, i: int)
    requires |tms| > 0 && !AwayEntry(tms[|tms| - 1])
    requires LastAway(tms[..|tms| - 1], i)
    ensures LastAway(tms, i)
  {
    var front := tms[..|tms| - 1];
    forall j | i < j < |tms| ensures !AwayEntry(tms[j]) {
      if j < |front| {
        assert tms[j] == front[j];
      }
    }
  }

  lemma NoAwayExtends(tms: seq<Json>, front: seq<Json>)
    requires |tms| > 0 && front == tms[..|tms| - 1] && !AwayEntry(tms[|tms| - 1])
    requires forall i :: 0 <= i < |front| ==> !AwayEntry(front[i])
    ensures forall i :: 0 <= i < |tms| ==> !AwayEntry(tms[i])
  {
    forall j | 0 <= j < |tms| ensures !AwayEntry(tms[j]) {
      if j < |front| {
        assert tms[j] == front[j];
      }
    }
  }

  /** The away side is set exactly when some entry reads as away, and it is the line of the
      last such entry. */
  lemma {:induction false} ScanTeamsAway(tms: seq<Json>, sides: Sides)
    requires ScanTeams(tms) == Success(sides)
    ensures sides.away.None? <==> forall i :: 0 <= i < |tms| ==> !AwayEntry(tms[i])
    ensures sides.away.Some? ==> exists i :: LastAway(tms, i) && sides.away.value == ReadTeam(tms[i]).value.side
  {
    if |tms| > 0 {
      var front, last := tms[..|tms| - 1], tms[|tms| - 1];
      ScanTeamsLast(tms);
      var acc, line := ScanTeams(front).value, ReadTeam(last).value;
      ScanTeamsAway(front, acc);
      assert sides == Step(acc, last, line);
      if AwayEntry(last) {
        assert LastAway(tms, |tms| - 1);
        assert sides.away.value == ReadTeam(tms[|tms| - 1]).value.side;
      } else if sides.away.Some? {
        var i :| LastAway(front, i) && acc.away.value == ReadTeam(front[i]).value.side;
        LastAwayExtends(tms, i);
        assert tms[i] == front[i];
      } else {
        NoAwayExtends(tms, front);
      }
    }
  }

  /** `refs[0..2]['dspNm']`; fewer than three referees raises IndexError. */
  function Referees(refs: Json): (r: Result<seq<Json>, Error>)
    ensures r.Success? ==> refs.JArr? && |refs.elems| >= 3 && |r.value| == 3
    ensures r.Success? ==> forall i :: 0 <= i < 3 ==> r.value[i] == Field(refs.elems[i], "dspNm")
    ensures refs.JArr? && |refs.elems| < 3 ==> r.Failure?
  {
    var e1 :- GetIndex(refs, 0);
    var n1 :- GetKey(e1, "dspNm");
    var e2 :- GetIndex(refs, 1);
    var n2 :- GetKey(e2, "dspNm");
    var e3 :- GetIndex(refs, 2);
    var n3 :- GetKey(e3, "dspNm");
    Success([n1, n2, n3])
  }

  /** The header reads of `_convert_to_dataframe` (nba_stats/ESPN_NBA.py:194-229), given `page['content']['gamepackage']`. */
  function ReadHeader(pkg: Json): (r: Result<GameHeader, Error>)
    ensures r.Success? ==> r.value.gid == Field(Field(pkg, "gmStrp"), "gid")
    ensures r.Success? ==> Iterate(Field(Field(pkg, "gmStrp"), "tms")).Success?
    ensures r.Success? ==> ScanTeams(Iterate(Field(Field(pkg, "gmStrp"), "tms")).value)
                           == Success(Sides(r.value.home, r.value.away, r.value.winner))
    ensures r.Success? ==> Referees(Field(Field(pkg, "gmInfo"), "refs")) == Success(r.value.referees)
  {
    var strp :- GetKey(pkg, "gmStrp");
    var gid :- GetKey(strp, "gid");
    var date :- GetKey(strp, "dt");
    var seasonType :- GetKey(strp, "seasonType");
    var status :- GetKey(strp, "statusState");
    var tmsValue :- GetKey(strp, "tms");
    var tms :- Iterate(tmsValue);
    var sides :- ScanTeams(tms);
    var info :- GetKey(pkg, "gmInfo");
    var attendance :- GetKey(info, "attnd");
    var capacity :- GetKey(info, "cpcty");
    var venue :- GetKey(info, "loc");
    var addr :- GetKey(info, "locAddr");
    var city :- GetKey(addr, "city");
    var state :- GetKey(addr, "state");
    var refsValue :- GetKey(info, "refs");
    var refs :- Referees(refsValue);
    Success(GameHeader(gid, date, seasonType, status, sides.home, sides.away, sides.winner,
                       attendance, capacity, venue, city, state, refs))
  }

  /** A header is read only from complete data: at least three referees, and at least four
      line scores for every team entry of a `tms` list. Shorter data makes reading fail. */
  lemma ReadHeaderNeedsFullData(pkg: Json)
    requires ReadHeader(pkg).Success?
    ensures var refs := Field(Field(pkg, "gmInfo"), "refs");
            refs.JArr? && |refs.elems| >= 3
    ensures var tms := Field(Field(pkg, "gmStrp"), "tms");
            tms.JArr? ==> forall i :: 0 <= i < |tms.elems| ==>
              var ls := Field(tms.elems[i], "linescores");
              ls.JArr? && |ls.elems| >= 4
  {
    var tms := Field(Field(pkg, "gmStrp"), "tms");
    if tms.JArr? {
      assert ScanTeams(tms.elems).Success?;
      forall i | 0 <= i < |tms.elems|
        ensures Field(tms.elems[i], "linescores").JArr? && |Field(tms.elems[i], "linescores").elems| >= 4
      {
        assert ReadTeam(tms.elems[i]).Success?;
      }
    }
  }
}

=== FILE: json.dfy ===
/** A parsed JSON document and the few Python operations the box-score code applies to it:
    truthiness, `== True`, subscripting, iteration, `str()` and `int()`. */
module Json {
  import opened Wrappers
  import opened Errors
  import Digits

  /** What `json.loads` produces (numbers restricted to integers). */
  datatype Json =
    | JNull
    | JBool(b: bool)
    | JNum(n: int)
    | JStr(s: string)
    | JArr(elems: seq<Json>)
    | JObj(fields: map<string, Json>)

  /** Python's `bool(v)`. */
  predicate Truthy(v: Json) {
    match v
    case JNull => false
    case JBool(b) => b
    case JNum(n) => n != 0
    case JStr(s) => s != ""
    case JArr(xs) => |xs| > 0
    case JObj(m) => |m| > 0
  }

  /** Python's `v == True`: `True` itself and the number 1 compare equal to it. */
  predicate IsTrue(v: Json) {
    v == JBool(true) || v == JNum(1)
  }

  /** `v[key]` with a string key. */
  function GetKey(v: Json, key: string): (r: Result<Json, Error>)
    ensures r.Success? <==> v.JObj? && key in v.fields
    ensures r.Success? ==> r.value == v.fields[key]
    ensures v.JObj? && key !in v.fields ==> r == Failure(KeyMissing(key))
  {
    match v
    case JObj(m) => if key in m then Success(m[key]) else Failure(KeyMissing(key))
    case JArr(_) => Failure(WrongType("list indices must be integers"))
    case JStr(_) => Failure(WrongType("string indices must be integers"))
    case _ => Failure(WrongType("object is not subscriptable"))
  }

  /** `v[k0][k1]...` with string keys, left to right. */
  function GetPath(v: Json, keys: seq<string>): (r: Result<Json, Error>)
    decreases |keys|
  {
    if |keys| == 0 then Success(v)
    else
      var next :- GetKey(v, keys[0]);
      GetPath(next, keys[1..])
  }

  /** `v[i]` with a non-negative integer index: a list element, a one-character string,
      or a KeyError for a dictionary (JSON keys are strings, never the integer `i`). */
  function GetIndex(v: Json, i: nat): (r: Result<Json, Error>)
    ensures v.JArr? ==> (r.Success? <==> i < |v.elems|)
    ensures v.JArr? && r.Success? ==> r.value == v.elems[i]
    ensures v.JArr? && i >= |v.elems| ==> r == Failure(IndexOutOfRange(i))
    ensures v.JStr? ==> (r.Success? <==> i < |v.s|)
    ensures v.JStr? && r.Success? ==> r.value == JStr([v.s[i]])
    ensures r.Success? ==> v.JArr? || (v.JStr? && r.value.JStr?)
  {
    match v
    case JArr(xs) => if i < |xs| then Success(xs[i]) else Failure(IndexOutOfRange(i))
    case JStr(s) => if i < |s| then Success(JStr([s[i]])) else Failure(IndexOutOfRange(i))
    case JObj(_) => Failure(KeyMissing(Digits.ShowNat(i)))
    case _ => Failure(WrongType("object is not subscriptable"))
  }

  /** The items `for x in v:` visits, for a loop whose body first subscripts `x` with a
      string key. A string yields its characters; a non-empty dictionary yields its keys,
      which are strings, so that first subscript raises TypeError: the failure is reported
      here. An empty dictionary yields nothing; a scalar is not iterable. */
  function Iterate(v: Json): (r: Result<seq<Json>, Error>)
    ensures v.JArr? ==> r == Success(v.elems)
    ensures v.JStr? ==> r.Success? && |r.value| == |v.s|
    ensures v.JStr? ==> forall i :: 0 <= i < |v.s| ==> r.value[i] == JStr([v.s[i]])
    ensures v.JObj? && |v.fields| == 0 ==> r == Success([])
    ensures r.Success? && !v.JArr? ==> forall i :: 0 <= i < |r.value| ==> r.value[i].JStr?
    ensures r.Failure? <==> (v.JObj? && |v.fields| > 0) || v.JNull? || v.JBool? || v.JNum?
  {
    match v
    case JArr(xs) => Success(xs)
    case JStr(s) => Success(seq(|s|, i requires 0 <= i < |s| => JStr([s[i]])))
    case JObj(m) => if |m| == 0 then Success([]) else Failure(WrongType("string indices must be integers"))
    case _ => Failure(WrongType("object is not iterable"))
  }

  /** Python's `str(v)`; for a list or a dictionary only the leading bracket is kept,
      which is all the callers here depend on. */
  function Str(v: Json): (s: string)
    ensures v.JStr? ==> s == v.s
    ensures v.JArr? || v.JObj? ==> |s| > 0 && !Digits.IsDigit(s[0])
  {
    match v
    case JNull => "None"
    case JBool(b) => if b then "True" else "False"
    case JNum(n) => Digits.ShowInt(n)
    case JStr(s) => s
    case JArr(_) => "["
    case JObj(_) => "{"
  }

  /** `int(s)` of a string: ValueError unless it is a digit string. */
  function IntOfString(s: string): (r: Result<int, Error>)
    ensures r.Success? <==> |s| > 0 && Digits.AllDigits(s)
    ensures r.Success? ==> r.value >= 0 && r.value == Digits.DecimalValue(s)
  {
    match Digits.ParseDecimal(s)
    case Some(n) => Success(n)
    case None => Failure(BadValue("invalid literal for int(): " + s))
  }

  /** `int(str(n))` gives back any natural `n`. */
  lemma IntOfShowNat(n: nat)
    ensures IntOfString(Digits.ShowNat(n)) == Success(n)
  {
    Digits.ShowNatRoundTrip(n);
  }

  /** `int(v)` of a JSON value. */
  function Int(v: Json): (r: Result<int, Error>)
    ensures v.JNum? ==> r == Success(v.n)
    ensures v.JNull? || v.JArr? || v.JObj? ==> r.Failure?
    ensures v.JStr? ==> r == IntOfString(v.s)
  {
    match v
    case JNum(n) => Success(n)
    case JBool(b) => Success(if b then 1 else 0)
    case JStr(s) => IntOfString(s)
    case JNull => Failure(WrongType("int() argument must not be None"))
    case _ => Failure(WrongType("int() argument must be a string or a number"))
  }

  /** The member `key` of a dictionary, or null when there is none; for stating contracts. */
  function Field(v: Json, key: string): Json {
    if v.JObj? && key in v.fields then v.fields[key] else JNull
  }
}

=== FILE: payload.dfy ===
/** The collect loop of `_get_json_by_compile`: every non-empty script body in which the
    payload pattern matches contributes one parsed document, in script order. */
module Payload {
  import opened Wrappers
  import opened Errors
  import opened Json
  import Anchor

  /** A script tag's `.string`: `None` when the tag has no single text child. */
  type Script = Option<string>

  /** `json.loads`, which is outside the model: a document, or `None` where it would raise. */
  type Parser = string -> Option<Json>

  /** The capture one script contributes: nothing for a missing or empty body or a body the
      pattern does not match. */
  function ScriptCapture(script: Script): (r: Option<string>)
    ensures r.Some? <==> script.Some? && script.value != "" && Anchor.Capture(script.value).Some?
    ensures r.Some? ==> r == Anchor.Capture(script.value)
    ensures r.Some? ==> Anchor.Braced(r.value)
  {
    match script
    case None => None
    case Some(body) => if body == "" then None else Anchor.Capture(body)
  }

  /** The captured texts of all scripts, in script order. */
  function Captures(scripts: seq<Script>): (caps: seq<string>)
    ensures |caps| <= |scripts|
    ensures forall c :: c in caps ==> Anchor.Braced(c)
  {
    if |scripts| == 0 then []
    else
      var rest := Captures(scripts[1..]);
      match ScriptCapture(scripts[0])
      case None => rest
      case Some(c) => [c] + rest
  }

  /** Capturing a longer list of scripts appends the captures of the added scripts. */
  lemma {:induction false} CapturesAppend(a: seq<Script>, b: seq<Script>)
    ensures Captures(a + b) == Captures(a) + Captures(b)
  {
    if |a| > 0 {
      assert (a + b)[0] == a[0];
      assert (a + b)[1..] == a[1..] + b;
      CapturesAppend(a[1..], b);
      match ScriptCapture(a[0])
      case None =>
      case Some(c) =>
        assert [c] + (Captures(a[1..]) + Captures(b)) == ([c] + Captures(a[1..])) + Captures(b);
    } else {
      assert a + b == b;
    }
  }

  /** One script contributes exactly its own capture; skipped scripts contribute nothing. */
  lemma CapturesSingle(script: Script)
    ensures Captures([script]) == (match ScriptCapture(script) case None => [] case Some(c) => [c])
  {
    assert [script][1..] == [];
  }

  /** Parses each capture in order; the first capture `json.loads` rejects aborts the run. */
  function ParseAll(caps: seq<string>, parse: Parser): (r: Result<seq<Json>, Error>)
    ensures r.Success? <==> forall i :: 0 <= i < |caps| ==> parse(caps[i]).Some?
    ensures r.Success? ==> |r.value| == |caps| && forall i :: 0 <= i < |caps| ==> r.value[i] == parse(caps[i]).value
    ensures r.Failure? ==> r.error == JsonDecodeFailed
  {
    if |caps| == 0 then Success([])
    else
      match parse(caps[0])
      case None => Failure(JsonDecodeFailed)
      case Some(doc) =>
        var rest :- ParseAll(caps[1..], parse);
        Success([doc] + rest)
  }

  /** `self.jsons` after `_get_json_by_compile`: one document per matching script body. */
  function ExtractPayloads(scripts: seq<Script>, parse: Parser): (r: Result<seq<Json>, Error>)
    ensures r.Success? ==> |r.value| == |Captures(scripts)| <= |scripts|
    ensures r.Success? ==> forall i :: 0 <= i < |r.value| ==> Some(r.value[i]) == parse(Captures(scripts)[i])
    ensures r.Failure? <==> exists c :: c in Captures(scripts) && parse(c).None?
  {
    ParseAll(Captures(scripts), parse)
  }

  /** No script tags at all is not an error here: the list of documents is simply empty. */
  lemma NoScriptsNoPayloads(parse: Parser)
    ensures ExtractPayloads([], parse) == Success([])
  {
  }
}

=== FILE: rows.dfy ===
/** The rows of one team's box score: one per listed player, starters first, then one for
    the team totals. */
module Rows {
  import opened Wrappers
  import opened Errors
  import opened Json
  import opened Frame
  import opened Columns
  import opened Stats

  /** ASCII letters and digits. */
  predicate IsAlnumChar(c: char) {
    'a' <= c <= 'z' || 'A' <= c <= 'Z' || '0' <= c <= '9'
  }

  /** `str.isalnum()`: non-empty, letters and digits only. */
  predicate IsAlnum(s: string) {
    |s| > 0 && forall i :: 0 <= i < |s| ==> IsAlnumChar(s[i])
  }

  /** Whether a player's stat line counts as played, with the stats it then carries. */
  datatype Played = NotPlayed | PlayedWith(stats: seq<Json>)

  /** `player['stats']` is used when it is truthy and its first element is alphanumeric,
      and it then has to be a list to be appended to the header values. A player who did
      not play carries a placeholder such as "DNP-COACH'S DECISION" or nothing at all. */
  function PlayedTest(raw: Json): (r: Result<Played, Error>)
    ensures r.Success? && r.value.PlayedWith? <==>
              raw.JArr? && |raw.elems| > 0 && raw.elems[0].JStr? && IsAlnum(raw.elems[0].s)
    ensures r.Success? && r.value.PlayedWith? ==> r.value.stats == raw.elems
    ensures r == Success(NotPlayed) <==>
              !Truthy(raw) ||
              (raw.JArr? && |raw.elems| > 0 && raw.elems[0].JStr? && !IsAlnum(raw.elems[0].s)) ||
              (raw.JStr? && |raw.s| > 0 && !IsAlnumChar(raw.s[0]))
  {
    if !Truthy(raw) then Success(NotPlayed)
    else
      var first :- GetIndex(raw, 0);
      if !first.JStr? then Failure(WrongType("object has no attribute 'isalnum'"))
      else if !IsAlnum(first.s) then Success(NotPlayed)
      else if raw.JArr? then Success(PlayedWith(raw.elems))
      else
        assert first.s[0] == raw.s[0];
        Failure(WrongType("can only concatenate list (not \"str\") to list"))
  }

  /** The nine header cells of a player's row. */
  function PlayerHeader(gid: Json, tid: Json, abbrev: Json, played: bool, starter: bool,
                        pid: Json, name: Json, pos: Json): (h: seq<Cell>)
    ensures |h| == |HeaderCols|
  {
    [Val(gid), Val(tid), Val(abbrev), Flag(false), Flag(played), Flag(starter), Val(pid), Val(name), Val(pos)]
  }

  /** The nine header cells of a team-totals row: no player, no played or starter flag. */
  function TotalsHeader(gid: Json, tid: Json, abbrev: Json): (h: seq<Cell>)
    ensures |h| == |HeaderCols|
  {
    [Val(gid), Val(tid), Val(abbrev), Flag(true), Null, Null, Null, Null, Null]
  }

  /** `[None] * 20`: the stat cells of a player who did not play. */
  function NullStats(): (cells: seq<Cell>)
    ensures |cells| == NullStatCount
    ensures forall i :: 0 <= i < |cells| ==> cells[i] == Null
  {
    seq(NullStatCount, _ => Null)
  }

  /** The player at position `index` of the combined starters-then-bench list. */
  function PlayerRow(gid: Json, tid: Json, abbrev: Json, lbls: seq<string>, index: nat, player: Json): (r: Result<Row, Error>)
    ensures r.Success? ==> |r.value| == |BoxScoreCols|
  {
    var info :- GetKey(player, "athlt");
    var pid :- GetKey(info, "id");
    var name :- GetKey(info, "shrtNm");
    var pos :- GetKey(info, "pos");
    var starter := index < 5;
    var raw :- GetKey(player, "stats");
    var played :- PlayedTest(raw);
    match played
    case NotPlayed =>
      Success(PlayerHeader(gid, tid, abbrev, false, starter, pid, name, pos) + NullStats())
    case PlayedWith(stats) =>
      StatRow(PlayerHeader(gid, tid, abbrev, true, starter, pid, name, pos), lbls, stats)
  }

  /** `rowOf(start + i, xs[i])` for every `i`, stopping at the first failure. */
  function MapRows(rowOf: (nat, Json) -> Result<Row, Error>, xs: seq<Json>, start: nat): (r: Result<seq<Row>, Error>)
    ensures r.Success? ==> |r.value| == |xs|
  {
    if |xs| == 0 then Success([])
    else
      var first :- rowOf(start, xs[0]);
      var rest :- MapRows(rowOf, xs[1..], start + 1);
      Success([first] + rest)
  }

  /** The rows are built exactly when every element's row is, and each sits at the element's
      position. */
  lemma {:induction false} MapRowsEach(rowOf: (nat, Json) -> Result<Row, Error>, xs: seq<Json>, start: nat)
    ensures MapRows(rowOf, xs, start).Success? <==> forall i :: 0 <= i < |xs| ==> rowOf(start + i, xs[i]).Success?
    ensures MapRows(rowOf, xs, start).Success? ==>
              forall i :: 0 <= i < |xs| ==> rowOf(start + i, xs[i]) == Success(MapRows(rowOf, xs, start).value[i])
  {
    if |xs| > 0 {
      var rest := xs[1..];
      MapRowsEach(rowOf, rest, start + 1);
      assert forall i :: 1 <= i < |xs| ==> xs[i] == rest[i - 1] && start + i == (start + 1) + (i - 1);
    }
  }

  /** The rows of `players`, numbered from 0 in the combined starters-then-bench list. */
  function PlayerRows(gid: Json, tid: Json, abbrev: Json, lbls: seq<string>, players: seq<Json>): (r: Result<seq<Row>, Error>)
    ensures r.Success? ==> |r.value| == |players|
  {
    MapRows((i: nat, p: Json) => PlayerRow(gid, tid, abbrev, lbls, i, p), players, 0)
  }

  /** The player rows are built exactly when every player's row is, and the row of the
      player at position `i` is the `i`-th one. */
  lemma PlayerRowsEach(gid: Json, tid: Json, abbrev: Json, lbls: seq<string>, players: seq<Json>)
    ensures PlayerRows(gid, tid, abbrev, lbls, players).Success? <==>
              forall i :: 0 <= i < |players| ==> PlayerRow(gid, tid, abbrev, lbls, i, players[i]).Success?
    ensures PlayerRows(gid, tid, abbrev, lbls, players).Success? ==>
              forall i :: 0 <= i < |players| ==>
                PlayerRow(gid, tid, abbrev, lbls, i, players[i]) == Success(PlayerRows(gid, tid, abbrev, lbls, players).value[i])
  {
    PlayerRowsBuilt(gid, tid, abbrev, lbls, players);
    PlayerRowsAt(gid, tid, abbrev, lbls, players);
  }

  lemma PlayerRowsBuilt(gid: Json, tid: Json, abbrev: Json, lbls: seq<string>, players: seq<Json>)
    ensures PlayerRows(gid, tid, abbrev, lbls, players).Success? <==>
              forall i :: 0 <= i < |players| ==> PlayerRow(gid, tid, abbrev, lbls, i, players[i]).Success?
  {
    if forall i :: 0 <= i < |players| ==> PlayerRow(gid, tid, abbrev, lbls, i, players[i]).Success? {
      PlayerRowsWhenEach(gid, tid, abbrev, lbls, players);
    }
    PlayerRowsAt(gid, tid, abbrev, lbls, players);
  }

  lemma PlayerRowsAt(gid: Json, tid: Json, abbrev: Json, lbls: seq<string>, players: seq<Json>)
    ensures PlayerRows(gid, tid, abbrev, lbls, players).Success? ==>
              forall i :: 0 <= i < |players| ==>
                PlayerRow(gid, tid, abbrev, lbls, i, players[i]) == Success(PlayerRows(gid, tid, abbrev, lbls, players).value[i])
  {
    if PlayerRows(gid, tid, abbrev, lbls, players).Success? {
      forall i | 0 <= i < |players|
        ensures PlayerRow(gid, tid, abbrev, lbls, i, players[i]) == Success(PlayerRows(gid, tid, abbrev, lbls, players).value[i])
      {
        PlayerRowIndexed(gid, tid, abbrev, lbls, players, i);
      }
    }
  }

  lemma PlayerRowsWhenEach(gid: Json, tid: Json, abbrev: Json, lbls: seq<string>, players: seq<Json>)
    requires forall i :: 0 <= i < |players| ==> PlayerRow(gid, tid, abbrev, lbls, i, players[i]).Success?
    ensures PlayerRows(gid, tid, abbrev, lbls, players).Success?
  {
    MapRowsEach((i: nat, p: Json) => PlayerRow(gid, tid, abbrev, lbls, i, p), players, 0);
  }

  lemma PlayerRowIndexed(gid: Json, tid: Json, abbrev: Json, lbls: seq<string>, players: seq<Json>, i: nat)
    requires PlayerRows(gid, tid, abbrev, lbls, players).Success? && i < |players|
    ensures PlayerRow(gid, tid, abbrev, lbls, i, players[i]) == Success(PlayerRows(gid, tid, abbrev, lbls, players).value[i])
  {
    var rowOf := (i: nat, p: Json) => PlayerRow(gid, tid, abbrev, lbls, i, p);
    MapRowsEach(rowOf, players, 0);
    assert rowOf(0 + i, players[i]) == Success(PlayerRows(gid, tid, abbrev, lbls, players).value[i]);
  }

  /** `table_column`, which is appended to the header names: a list of strings. */
  function LabelList(v: Json): (r: Result<seq<string>, Error>)
    ensures r.Success? <==> v.JArr? && forall i :: 0 <= i < |v.elems| ==> v.elems[i].JStr?
    ensures r.Success? ==> |r.value| == |v.elems| && forall i :: 0 <= i < |v.elems| ==> JStr(r.value[i]) == v.elems[i]
  {
    if !v.JArr? then Failure(WrongType("can only concatenate list to list"))
    else if exists i :: 0 <= i < |v.elems| && !v.elems[i].JStr? then Failure(WrongType("column labels must be strings"))
    else Success(seq(|v.elems|, i requires 0 <= i < |v.elems| => v.elems[i].s))
  }

  /** `team_stats['ttls']`, which is appended to the header values: a list. */
  function ValueList(v: Json): (r: Result<seq<Json>, Error>)
    ensures r.Success? <==> v.JArr?
    ensures r.Success? ==> r.value == v.elems
  {
    if v.JArr? then Success(v.elems) else Failure(WrongType("can only concatenate list to list"))
  }

  /** `starter_stats['athlts'] + bench_stats['athlts']`, iterated: two lists are joined,
      two strings are joined and yield their characters, anything else is a TypeError. */
  function Athletes(starters: Json, bench: Json): (r: Result<seq<Json>, Error>)
    ensures starters.JArr? && bench.JArr? ==> r == Success(starters.elems + bench.elems)
    ensures r.Success? <==> (starters.JArr? && bench.JArr?) || (starters.JStr? && bench.JStr?)
  {
    if starters.JArr? && bench.JArr? then Success(starters.elems + bench.elems)
    else if starters.JStr? && bench.JStr? then Iterate(JStr(starters.s + bench.s))
    else Failure(WrongType("unsupported operand type(s) for +"))
  }

  /** The tables of one team entry: starters, bench and totals, the site's labels taken
      from the bench table, and the combined player list. */
  datatype Tables = Tables(tid: Json, abbrev: Json, lbls: seq<string>, players: seq<Json>, totals: Json)

  function ReadTables(team: Json): (r: Result<Tables, Error>)
    ensures r.Success? ==> r.value.tid == Field(Field(team, "tm"), "id")
    ensures r.Success? ==> r.value.abbrev == Field(Field(team, "tm"), "abbrev")
    ensures r.Success? ==> var st := Field(team, "stats");
              st.JArr? && |st.elems| >= 3 && r.value.totals == st.elems[2] &&
              LabelList(Field(st.elems[1], "lbls")) == Success(r.value.lbls) &&
              Athletes(Field(st.elems[0], "athlts"), Field(st.elems[1], "athlts")) == Success(r.value.players)
  {
    var info :- GetKey(team, "tm");
    var tid :- GetKey(info, "id");
    var abbrev :- GetKey(info, "abbrev");
    var statsValue :- GetKey(team, "stats");
    var starterStats :- GetIndex(statsValue, 0);
    var benchStats :- GetIndex(statsValue, 1);
    var teamStats :- GetIndex(statsValue, 2);
    var lblsValue :- GetKey(benchStats, "lbls");
    var _ :- GetKey(benchStats, "keys");
    var lbls :- LabelList(lblsValue);
    var starters :- GetKey(starterStats, "athlts");
    var bench :- GetKey(benchStats, "athlts");
    var players :- Athletes(starters, bench);
    Success(Tables(tid, abbrev, lbls, players, teamStats))
  }

  /** Every row of one team: its players in order, then its totals. */
  function TeamRows(gid: Json, team: Json): (r: Result<seq<Row>, Error>)
    ensures r.Success? ==> ReadTables(team).Success?
  {
    var t :- ReadTables(team);
    var rows :- PlayerRows(gid, t.tid, t.abbrev, t.lbls, t.players);
    var ttlsValue :- GetKey(t.totals, "ttls");
    var ttls :- ValueList(ttlsValue);
    var total :- StatRow(TotalsHeader(gid, t.tid, t.abbrev), t.lbls, ttls);
    Success(rows + [total])
  }

  /** A player's row: the identity cells, the played flag set exactly when the stat line
      passes the played test, the starter flag set exactly for the first five players, and
      either twenty nulls or the stat row built from the stat line. */
  lemma PlayerRowContents(gid: Json, tid: Json, abbrev: Json, lbls: seq<string>, index: nat, player: Json, row: Row)
    requires PlayerRow(gid, tid, abbrev, lbls, index, player) == Success(row)
    ensures |row| == |BoxScoreCols|
    ensures PlayedTest(Field(player, "stats")).Success?
    ensures var played := PlayedTest(Field(player, "stats")).value;
            var info := Field(player, "athlt");
            row[..|HeaderCols|] == PlayerHeader(gid, tid, abbrev, played.PlayedWith?, index < 5,
                                                Field(info, "id"), Field(info, "shrtNm"), Field(info, "pos"))
    ensures PlayedTest(Field(player, "stats")).value.NotPlayed? ==>
              forall k :: |HeaderCols| <= k < |row| ==> row[k] == Null
    ensures PlayedTest(Field(player, "stats")).value.PlayedWith? ==>
              StatRow(row[..|HeaderCols|], lbls, PlayedTest(Field(player, "stats")).value.stats) == Success(row)
  {
    var info := Field(player, "athlt");
    var played := PlayedTest(Field(player, "stats")).value;
    var header := PlayerHeader(gid, tid, abbrev, played.PlayedWith?, index < 5,
                               Field(info, "id"), Field(info, "shrtNm"), Field(info, "pos"));
    if played.PlayedWith? {
      StatRowHeader(header, lbls, played.stats, row);
    } else {
      assert row == header + NullStats();
      assert row[..|HeaderCols|] == header;
    }
  }

  /** The flags of a player's row: not a totals row, played exactly when the first stat is
      an alphanumeric string of a stat list, starter exactly at positions below five. */
  lemma PlayerRowFlags(gid: Json, tid: Json, abbrev: Json, lbls: seq<string>, index: nat, player: Json, row: Row)
    requires PlayerRow(gid, tid, abbrev, lbls, index, player) == Success(row)
    ensures |row| == |BoxScoreCols|
    ensures row[IsTotalIdx] == Flag(false)
    ensures row[IsStarterIdx] == Flag(index < 5)
    ensures var raw := Field(player, "stats");
            row[IsPlayedIdx] == Flag(raw.JArr? && |raw.elems| > 0 && raw.elems[0].JStr? && IsAlnum(raw.elems[0].s))
  {
    PlayerRowContents(gid, tid, abbrev, lbls, index, player, row);
    var played := PlayedTest(Field(player, "stats")).value;
    var info := Field(player, "athlt");
    PlayerHeaderRow(row, gid, tid, abbrev, played.PlayedWith?, index < 5,
                    Field(info, "id"), Field(info, "shrtNm"), Field(info, "pos"));
  }

  /** A row starting with a player header carries that header's flags. */
  lemma PlayerHeaderRow(row: Row, gid: Json, tid: Json, abbrev: Json, played: bool, starter: bool,
                        pid: Json, name: Json, pos: Json)
    requires |row| == |BoxScoreCols| && row[..|HeaderCols|] == PlayerHeader(gid, tid, abbrev, played, starter, pid, name, pos)
    ensures row[IsTotalIdx] == Flag(false) && row[IsPlayedIdx] == Flag(played) && row[IsStarterIdx] == Flag(starter)
  {
    HeaderFlags(row, PlayerHeader(gid, tid, abbrev, played, starter, pid, name, pos));
  }

  /** The flag cells of a row are those of its header. */
  lemma HeaderFlags(row: Row, header: seq<Cell>)
    requires |row| == |BoxScoreCols| && |header| == |HeaderCols| && row[..|HeaderCols|] == header
    ensures row[IsTotalIdx] == header[IsTotalIdx] && row[IsPlayedIdx] == header[IsPlayedIdx]
    ensures row[IsStarterIdx] == header[IsStarterIdx]
    ensures forall k :: 0 <= k < |HeaderCols| ==> row[k] == header[k]
  {
    assert forall k :: 0 <= k < |HeaderCols| ==> row[k] == row[..|HeaderCols|][k];
    assert row[IsTotalIdx] == row[..|HeaderCols|][IsTotalIdx];
    assert row[IsStarterIdx] == row[..|HeaderCols|][IsStarterIdx];
    assert row[IsPlayedIdx] == row[..|HeaderCols|][IsPlayedIdx];
  }

  /** A team's rows: one per player of the combined list, in order, then the totals row
      built from the totals table. */
  lemma TeamRowsContents(gid: Json, team: Json, rows: seq<Row>)
    requires TeamRows(gid, team) == Success(rows)
    ensures ReadTables(team).Success?
    ensures var t := ReadTables(team).value;
            |rows| == |t.players| + 1 &&
            (forall i :: 0 <= i < |t.players| ==> PlayerRow(gid, t.tid, t.abbrev, t.lbls, i, t.players[i]) == Success(rows[i])) &&
            ValueList(Field(t.totals, "ttls")).Success? &&
            StatRow(TotalsHeader(gid, t.tid, t.abbrev), t.lbls, ValueList(Field(t.totals, "ttls")).value) == Success(rows[|rows| - 1])
  {
    TeamRowsSteps(gid, team, rows);
    var t := ReadTables(team).value;
    PlayersThenTotal(gid, t.tid, t.abbrev, t.lbls, t.players, rows);
  }

  /** Player rows followed by one more row: one per player, in order. */
  lemma PlayersThenTotal(gid: Json, tid: Json, abbrev: Json, lbls: seq<string>, players: seq<Json>, rows: seq<Row>)
    requires PlayerRows(gid, tid, abbrev, lbls, players).Success?
    requires |rows| > 0 && rows[..|rows| - 1] == PlayerRows(gid, tid, abbrev, lbls, players).value
    ensures |rows| == |players| + 1
    ensures forall i :: 0 <= i < |players| ==> PlayerRow(gid, tid, abbrev, lbls, i, players[i]) == Success(rows[i])
  {
    PlayerRowsEach(gid, tid, abbrev, lbls, players);
    var prs := PlayerRows(gid, tid, abbrev, lbls, players).value;
    assert forall i :: 0 <= i < |prs| ==> rows[i] == prs[i];
  }

  /** The steps `TeamRows` takes, one result after another. */
  lemma TeamRowsSteps(gid: Json, team: Json, rows: seq<Row>)
    requires TeamRows(gid, team) == Success(rows)
    ensures ReadTables(team).Success?
    ensures var t := ReadTables(team).value;
            PlayerRows(gid, t.tid, t.abbrev, t.lbls, t.players).Success? &&
            ValueList(Field(t.totals, "ttls")).Success? &&
            StatRow(TotalsHeader(gid, t.tid, t.abbrev), t.lbls, ValueList(Field(t.totals, "ttls")).value).Success? &&
            |rows| > 0 && rows[..|rows| - 1] == PlayerRows(gid, t.tid, t.abbrev, t.lbls, t.players).value &&
            rows[|rows| - 1] == StatRow(TotalsHeader(gid, t.tid, t.abbrev), t.lbls, ValueList(Field(t.totals, "ttls")).value).value
  {
    var t := ReadTables(team).value;
    var prs := PlayerRows(gid, t.tid, t.abbrev, t.lbls, t.players).value;
    assert rows[..|rows| - 1] == prs;
  }

  /** A team's rows are built exactly when its tables are read, every player's row is
      built, and the totals form a list from which a stat row is built. */
  lemma TeamRowsBuilt(gid: Json, team: Json)
    ensures TeamRows(gid, team).Success? <==>
              ReadTables(team).Success? &&
              (var t := ReadTables(team).value;
               (forall i :: 0 <= i < |t.players| ==> PlayerRow(gid, t.tid, t.abbrev, t.lbls, i, t.players[i]).Success?) &&
               ValueList(Field(t.totals, "ttls")).Success? &&
               StatRow(TotalsHeader(gid, t.tid, t.abbrev), t.lbls, ValueList(Field(t.totals, "ttls")).value).Success?)
  {
    if ReadTables(team).Success? {
      var t := ReadTables(team).value;
      PlayerRowsEach(gid, t.tid, t.abbrev, t.lbls, t.players);
      if t.totals.JObj? && "ttls" in t.totals.fields {
        assert GetKey(t.totals, "ttls") == Success(Field(t.totals, "ttls"));
      }
    }
  }

  /** Exactly the last row of a team is a totals row; a player's row is marked as a starter
      exactly at positions below five. */
  lemma TeamRowsFlags(gid: Json, team: Json, rows: seq<Row>)
    requires TeamRows(gid, team) == Success(rows)
    ensures |rows| > 0
    ensures forall i :: 0 <= i < |rows| ==> |rows[i]| == |BoxScoreCols| && rows[i][IsTotalIdx] == Flag(i == |rows| - 1)
    ensures forall i :: 0 <= i < |rows| - 1 ==> rows[i][IsStarterIdx] == Flag(i < 5)
  {
    TeamRowsContents(gid, team, rows);
    var t := ReadTables(team).value;
    forall i | 0 <= i < |rows| - 1
      ensures |rows[i]| == |BoxScoreCols| && rows[i][IsTotalIdx] == Flag(false) && rows[i][IsStarterIdx] == Flag(i < 5)
    {
      PlayerRowFlags(gid, t.tid, t.abbrev, t.lbls, i, t.players[i], rows[i]);
    }
    TotalsRowFlag(gid, t.tid, t.abbrev, t.lbls, ValueList(Field(t.totals, "ttls")).value, rows[|rows| - 1]);
  }

  /** A totals row is marked as one. */
  lemma TotalsRowFlag(gid: Json, tid: Json, abbrev: Json, lbls: seq<string>, ttls: seq<Json>, row: Row)
    requires StatRow(TotalsHeader(gid, tid, abbrev), lbls, ttls) == Success(row)
    ensures |row| == |BoxScoreCols| && row[IsTotalIdx] == Flag(true)
    ensures row[0] == Val(gid) && row[1] == Val(tid) && row[2] == Val(abbrev)
    ensures forall k :: IsPlayedIdx <= k < |HeaderCols| ==> row[k] == Null
  {
    var h := TotalsHeader(gid, tid, abbrev);
    StatRowHeader(h, lbls, ttls, row);
    TotalsHeaderRow(h, gid, tid, abbrev, row);
  }

  /** A row starting with a totals header carries that header's cells. */
  lemma TotalsHeaderRow(h: seq<Cell>, gid: Json, tid: Json, abbrev: Json, row: Row)
    requires h == TotalsHeader(gid, tid, abbrev)
    requires |row| == |BoxScoreCols| && row[..|HeaderCols|] == h
    ensures row[IsTotalIdx] == Flag(true)
    ensures row[0] == Val(gid) && row[1] == Val(tid) && row[2] == Val(abbrev)
    ensures forall k :: IsPlayedIdx <= k < |HeaderCols| ==> row[k] == Null
  {
    HeaderFlags(row, h);
    TotalsHeaderCells(gid, tid, abbrev);
  }

  lemma TotalsHeaderCells(gid: Json, tid: Json, abbrev: Json)
    ensures var h := TotalsHeader(gid, tid, abbrev);
            h[0] == Val(gid) && h[1] == Val(tid) && h[2] == Val(abbrev) &&
            forall k :: IsPlayedIdx <= k < |HeaderCols| ==> h[k] == Null
  {
  }
}

=== FILE: stats.dfy ===
/** The stat part of one output row: the values under the site's labels are paired with
    their columns and renamed, the compound "made-attempted" columns are split into counts
    and ratios and dropped, and the result is laid out in the box-score column order. */
module Stats {
  import opened Wrappers
  import opened Errors
  import opened Json
  import opened Frame
  import opened Columns
  import Compound

  /** One output row, aligned with `BoxScoreCols`. */
  type Row = seq<Cell>

  /** The made and attempted counts held by the compound column `src`. */
  function CompoundOf(f: Frame, src: string): (r: Result<(int, int), Error>)
    ensures r.Success? ==> Lookup(f, src).Success? && Lookup(f, src).value.Val?
    ensures r.Success? ==> Compound.SplitValue(Lookup(f, src).value.v) == r
  {
    var c :- Lookup(f, src);
    if c.Val? then Compound.SplitValue(c.v)
    else Failure(WrongType("compound column " + src + " holds no payload value"))
  }

  /** `df[made] = int(str(df[src]).split('-')[0])`, then `df[attempted]` from field 1. */
  function SplitStep(f: Frame, src: string, made: string, attempted: string): Result<Frame, Error> {
    var p :- CompoundOf(f, src);
    Success(Assign(Assign(f, made, Count(p.0)), attempted, Count(p.1)))
  }

  /** `df[ratio] = round(df[made] / df[attempted] * 100, 2)`, kept as the pair of counts. */
  function RatioStep(f: Frame, made: string, attempted: string, ratio: string): Result<Frame, Error> {
    var m :- Lookup(f, made);
    var a :- Lookup(f, attempted);
    if m.Count? && a.Count? then Success(Assign(f, ratio, Pct(m.n, a.n)))
    else Failure(WrongType("ratio of columns that hold no counts"))
  }

  /** The nine derived columns, in the order the source computes them. */
  function Derive(f: Frame): Result<Frame, Error> {
    var f1 :- SplitStep(f, "fg", "fgm", "fga");
    var f2 :- SplitStep(f1, "3pt", "3ptm", "3pta");
    var f3 :- SplitStep(f2, "ft", "ftm", "fta");
    var f4 :- RatioStep(f3, "fgm", "fga", "fgr");
    var f5 :- RatioStep(f4, "3ptm", "3pta", "3ptr");
    RatioStep(f5, "ftm", "fta", "ftr")
  }

  /** Derive, drop the compound columns and select the output columns. */
  function Layout(f: Frame): Result<Row, Error> {
    var g :- Derive(f);
    Project(Drop(g, CompoundCols), BoxScoreCols)
  }

  function StatCells(stats: seq<Json>): (cells: seq<Cell>)
    ensures |cells| == |stats|
    ensures forall i :: 0 <= i < |stats| ==> cells[i] == Val(stats[i])
  {
    seq(|stats|, i requires 0 <= i < |stats| => Val(stats[i]))
  }

  /** `pd.Series(header + stats, index=HEADER_COLS + lbls)`, renamed. */
  function Labelled(header: seq<Cell>, lbls: seq<string>, stats: seq<Json>): Frame
    requires |header| == |HeaderCols| && |lbls| == |stats|
  {
    Rename(Zip(HeaderCols + lbls, header + StatCells(stats)))
  }

  /** The row of a played line or of the totals line: `header` under the header columns and
      `stats` under the site's labels `lbls`. Values and labels of different lengths make
      the series constructor fail. */
  function StatRow(header: seq<Cell>, lbls: seq<string>, stats: seq<Json>): (r: Result<Row, Error>)
    requires |header| == |HeaderCols|
    ensures r.Success? ==> |stats| == |lbls| && |r.value| == |BoxScoreCols|
  {
    if |stats| != |lbls| then Failure(BadValue("length of values does not match length of index"))
    else Layout(Labelled(header, lbls, stats))
  }

  /** `f` holds the header cells first, then one value per site label, renamed. */
  ghost predicate Shaped(f: Frame, header: seq<Cell>, lbls: seq<string>, stats: seq<Json>) {
    |header| == |HeaderCols| && |lbls| == |stats| && |f| == |HeaderCols| + |lbls| &&
    (forall k :: 0 <= k < |HeaderCols| ==> f[k] == Column(HeaderCols[k], header[k])) &&
    (forall i :: 0 <= i < |lbls| ==> f[|HeaderCols| + i] == Column(Renamed(lbls[i]), Val(stats[i])))
  }

  /** The labelled frame holds the header cells first, then one value per site label. */
  lemma LabelledColumns(header: seq<Cell>, lbls: seq<string>, stats: seq<Json>)
    requires |header| == |HeaderCols| && |lbls| == |stats|
    ensures Shaped(Labelled(header, lbls, stats), header, lbls, stats)
  {
    HeaderColsNotRenamed();
    var f := Labelled(header, lbls, stats);
    forall i | 0 <= i < |lbls| ensures f[|HeaderCols| + i] == Column(Renamed(lbls[i]), Val(stats[i])) {
      assert (HeaderCols + lbls)[|HeaderCols| + i] == lbls[i];
      assert (header + StatCells(stats))[|HeaderCols| + i] == Val(stats[i]);
    }
  }

  /** What one split step computes, and that it touches only its two target labels. */
  lemma SplitStepFacts(f: Frame, src: string, made: string, attempted: string, name: string)
    requires made != attempted
    requires SplitStep(f, src, made, attempted).Success?
    ensures CompoundOf(f, src).Success?
    ensures var g, p := SplitStep(f, src, made, attempted).value, CompoundOf(f, src).value;
            (Lookup(g, made).Success? ==> Lookup(g, made) == Success(Count(p.0))) &&
            (Lookup(g, attempted).Success? ==> Lookup(g, attempted) == Success(Count(p.1))) &&
            (Occurrences(f, made) == 0 && Occurrences(f, attempted) == 0 ==>
               Lookup(g, made) == Success(Count(p.0)) && Lookup(g, attempted) == Success(Count(p.1)))
    ensures name != made && name != attempted ==>
              var g := SplitStep(f, src, made, attempted).value;
              Lookup(g, name) == Lookup(f, name) && Occurrences(g, name) == Occurrences(f, name)
  {
    var p := CompoundOf(f, src).value;
    var g1 := Assign(f, made, Count(p.0));
    LookupAssignSame(f, made, Count(p.0));
    LookupAssignOther(g1, attempted, made, Count(p.1));
    LookupAssignSame(g1, attempted, Count(p.1));
    OccurrencesAssignOther(f, made, attempted, Count(p.0));
    if name != made && name != attempted {
      LookupAssignOther(f, made, name, Count(p.0));
      LookupAssignOther(g1, attempted, name, Count(p.1));
      OccurrencesAssignOther(f, made, name, Count(p.0));
      OccurrencesAssignOther(g1, attempted, name, Count(p.1));
    }
  }

  /** What one ratio step computes, and that it touches only its target label. */
  lemma RatioStepFacts(f: Frame, made: string, attempted: string, ratio: string, name: string)
    requires RatioStep(f, made, attempted, ratio).Success?
    ensures Lookup(f, made).Success? && Lookup(f, made).value.Count?
    ensures Lookup(f, attempted).Success? && Lookup(f, attempted).value.Count?
    ensures var g, pct := RatioStep(f, made, attempted, ratio).value,
                          Pct(Lookup(f, made).value.n, Lookup(f, attempted).value.n);
            (Lookup(g, ratio).Success? ==> Lookup(g, ratio) == Success(pct)) &&
            (Occurrences(f, ratio) == 0 ==> Lookup(g, ratio) == Success(pct))
    ensures name != ratio ==>
              var g := RatioStep(f, made, attempted, ratio).value;
              Lookup(g, name) == Lookup(f, name) && Occurrences(g, name) == Occurrences(f, name)
  {
    var pct := Pct(Lookup(f, made).value.n, Lookup(f, attempted).value.n);
    LookupAssignSame(f, ratio, pct);
    if name != ratio {
      LookupAssignOther(f, ratio, name, pct);
      OccurrencesAssignOther(f, ratio, name, pct);
    }
  }

  /** A split step leaves every other label as it was. */
  lemma SplitStepKeeps(f: Frame, src: string, made: string, attempted: string, name: string)
    requires made != attempted && name != made && name != attempted
    requires SplitStep(f, src, made, attempted).Success?
    ensures var g := SplitStep(f, src, made, attempted).value;
            Lookup(g, name) == Lookup(f, name) && Occurrences(g, name) == Occurrences(f, name)
  {
    SplitStepFacts(f, src, made, attempted, name);
  }

  /** A ratio step on two count columns succeeds, and its fresh ratio column can be selected. */
  lemma RatioStepSucceeds(f: Frame, made: string, attempted: string, ratio: string)
    requires Lookup(f, made).Success? && Lookup(f, made).value.Count?
    requires Lookup(f, attempted).Success? && Lookup(f, attempted).value.Count?
    ensures RatioStep(f, made, attempted, ratio).Success?
    ensures Occurrences(f, ratio) == 0 ==> Lookup(RatioStep(f, made, attempted, ratio).value, ratio).Success?
  {
    RatioStepFacts(f, made, attempted, ratio, ratio);
  }

  /** A ratio step leaves every other label as it was. */
  lemma RatioStepKeeps(f: Frame, made: string, attempted: string, ratio: string, name: string)
    requires name != ratio
    requires RatioStep(f, made, attempted, ratio).Success?
    ensures var g := RatioStep(f, made, attempted, ratio).value;
            Lookup(g, name) == Lookup(f, name) && Occurrences(g, name) == Occurrences(f, name)
  {
    RatioStepFacts(f, made, attempted, ratio, name);
  }

  /** Deriving leaves every label outside the derived columns as it was. */
  lemma DeriveKeeps(f: Frame, g: Frame, name: string)
    requires Derive(f) == Success(g)
    requires name !in DerivedCols
    ensures Lookup(g, name) == Lookup(f, name)
    ensures Occurrences(g, name) == Occurrences(f, name)
  {
    var f1 := SplitStep(f, "fg", "fgm", "fga").value;
    SplitStepKeeps(f, "fg", "fgm", "fga", name);
    var f2 := SplitStep(f1, "3pt", "3ptm", "3pta").value;
    SplitStepKeeps(f1, "3pt", "3ptm", "3pta", name);
    var f3 := SplitStep(f2, "ft", "ftm", "fta").value;
    SplitStepKeeps(f2, "ft", "ftm", "fta", name);
    var f4 := RatioStep(f3, "fgm", "fga", "fgr").value;
    RatioStepKeeps(f3, "fgm", "fga", "fgr", name);
    var f5 := RatioStep(f4, "3ptm", "3pta", "3ptr").value;
    RatioStepKeeps(f4, "3ptm", "3pta", "3ptr", name);
    RatioStepKeeps(f5, "ftm", "fta", "ftr", name);
  }

  /** After deriving, the made and attempted columns of `src` hold its two counts, and the
      ratio column, when it can be selected, holds their ratio. */
  ghost predicate Derived(f: Frame, g: Frame, src: string, made: string, attempted: string, ratio: string) {
    CompoundOf(f, src).Success? &&
    Lookup(g, made) == Success(Count(CompoundOf(f, src).value.0)) &&
    Lookup(g, attempted) == Success(Count(CompoundOf(f, src).value.1)) &&
    (Lookup(g, ratio).Success? ==>
       Lookup(g, ratio) == Success(Pct(CompoundOf(f, src).value.0, CompoundOf(f, src).value.1)))
  }

  /** The field-goal columns come from the "fg" column. */
  lemma DeriveFg(f: Frame, g: Frame)
    requires Derive(f) == Success(g)
    ensures Derived(f, g, "fg", "fgm", "fga", "fgr")
  {
    var f1 := SplitStep(f, "fg", "fgm", "fga").value;
    SplitStepFacts(f, "fg", "fgm", "fga", "");
    var f2 := SplitStep(f1, "3pt", "3ptm", "3pta").value;
    SplitStepKeeps(f1, "3pt", "3ptm", "3pta", "fgm");
    SplitStepKeeps(f1, "3pt", "3ptm", "3pta", "fga");
    var f3 := SplitStep(f2, "ft", "ftm", "fta").value;
    SplitStepKeeps(f2, "ft", "ftm", "fta", "fgm");
    SplitStepKeeps(f2, "ft", "ftm", "fta", "fga");
    var f4 := RatioStep(f3, "fgm", "fga", "fgr").value;
    RatioStepFacts(f3, "fgm", "fga", "fgr", "fgm");
    RatioStepKeeps(f3, "fgm", "fga", "fgr", "fga");
    var f5 := RatioStep(f4, "3ptm", "3pta", "3ptr").value;
    RatioStepKeeps(f4, "3ptm", "3pta", "3ptr", "fgm");
    RatioStepKeeps(f4, "3ptm", "3pta", "3ptr", "fga");
    RatioStepKeeps(f4, "3ptm", "3pta", "3ptr", "fgr");
    RatioStepKeeps(f5, "ftm", "fta", "ftr", "fgm");
    RatioStepKeeps(f5, "ftm", "fta", "ftr", "fga");
    RatioStepKeeps(f5, "ftm", "fta", "ftr", "fgr");
  }

  /** The three-point columns come from the "3pt" column. */
  lemma DeriveThree(f: Frame, g: Frame)
    requires Derive(f) == Success(g)
    ensures Derived(f, g, "3pt", "3ptm", "3pta", "3ptr")
  {
    var f1 := SplitStep(f, "fg", "fgm", "fga").value;
    SplitStepKeeps(f, "fg", "fgm", "fga", "3pt");
    var f2 := SplitStep(f1, "3pt", "3ptm", "3pta").value;
    SplitStepFacts(f1, "3pt", "3ptm", "3pta", "");
    var f3 := SplitStep(f2, "ft", "ftm", "fta").value;
    SplitStepKeeps(f2, "ft", "ftm", "fta", "3ptm");
    SplitStepKeeps(f2, "ft", "ftm", "fta", "3pta");
    var f4 := RatioStep(f3, "fgm", "fga", "fgr").value;
    RatioStepKeeps(f3, "fgm", "fga", "fgr", "3ptm");
    RatioStepKeeps(f3, "fgm", "fga", "fgr", "3pta");
    var f5 := RatioStep(f4, "3ptm", "3pta", "3ptr").value;
    RatioStepFacts(f4, "3ptm", "3pta", "3ptr", "3ptm");
    RatioStepKeeps(f4, "3ptm", "3pta", "3ptr", "3pta");
    RatioStepKeeps(f5, "ftm", "fta", "ftr", "3ptm");
    RatioStepKeeps(f5, "ftm", "fta", "ftr", "3pta");
    RatioStepKeeps(f5, "ftm", "fta", "ftr", "3ptr");
  }

  /** The free-throw columns come from the "ft" column. */
  lemma DeriveFt(f: Frame, g: Frame)
    requires Derive(f) == Success(g)
    ensures Derived(f, g, "ft", "ftm", "fta", "ftr")
  {
    var f1 := SplitStep(f, "fg", "fgm", "fga").value;
    SplitStepKeeps(f, "fg", "fgm", "fga", "ft");
    var f2 := SplitStep(f1, "3pt", "3ptm", "3pta").value;
    SplitStepKeeps(f1, "3pt", "3ptm", "3pta", "ft");
    var f3 := SplitStep(f2, "ft", "ftm", "fta").value;
    SplitStepFacts(f2, "ft", "ftm", "fta", "");
    var f4 := RatioStep(f3, "fgm", "fga", "fgr").value;
    RatioStepKeeps(f3, "fgm", "fga", "fgr", "ftm");
    RatioStepKeeps(f3, "fgm", "fga", "fgr", "fta");
    var f5 := RatioStep(f4, "3ptm", "3pta", "3ptr").value;
    RatioStepKeeps(f4, "3ptm", "3pta", "3ptr", "ftm");
    RatioStepKeeps(f4, "3ptm", "3pta", "3ptr", "fta");
    RatioStepFacts(f5, "ftm", "fta", "ftr", "ftm");
    RatioStepKeeps(f5, "ftm", "fta", "ftr", "fta");
  }

  /** A laid-out row has one cell per output column. */
  lemma LayoutLength(f: Frame, row: Row)
    requires Layout(f) == Success(row)
    ensures |row| == |BoxScoreCols|
  {
  }

  /** Every column of a laid-out row outside the derived ones reads what the frame held
      under that label. */
  lemma LayoutColumn(f: Frame, row: Row, k: nat)
    requires Layout(f) == Success(row)
    requires k < |BoxScoreCols| && BoxScoreCols[k] !in DerivedCols
    ensures k < |row| && Lookup(f, BoxScoreCols[k]) == Success(row[k])
  {
    var g := Derive(f).value;
    var d := Drop(g, CompoundCols);
    assert Project(d, BoxScoreCols) == Success(row);
    LookupDropOther(g, CompoundCols, BoxScoreCols[k]);
    DeriveKeeps(f, g, BoxScoreCols[k]);
  }

  /** The derived columns of a laid-out row read what deriving put under their labels. */
  lemma DerivedColumn(f: Frame, g: Frame, row: Row, made: nat, attempted: nat, ratio: nat)
    requires Derive(f) == Success(g) && Project(Drop(g, CompoundCols), BoxScoreCols) == Success(row)
    requires (made, attempted, ratio) in {(FgmIdx, FgaIdx, FgrIdx), (TpmIdx, TpaIdx, TprIdx), (FtmIdx, FtaIdx, FtrIdx)}
    ensures made < |row| && attempted < |row| && ratio < |row|
    ensures Lookup(g, BoxScoreCols[made]) == Success(row[made])
    ensures Lookup(g, BoxScoreCols[attempted]) == Success(row[attempted])
    ensures Lookup(g, BoxScoreCols[ratio]) == Success(row[ratio])
  {
    DerivedOutsideCompound();
    LookupDropOther(g, CompoundCols, BoxScoreCols[made]);
    LookupDropOther(g, CompoundCols, BoxScoreCols[attempted]);
    LookupDropOther(g, CompoundCols, BoxScoreCols[ratio]);
  }

  /** The derived columns of a laid-out row hold the counts and ratios of the compound
      columns. */
  lemma LayoutDerived(f: Frame, row: Row)
    requires Layout(f) == Success(row)
    ensures |row| == |BoxScoreCols|
    ensures CompoundOf(f, "fg").Success? && row[FgmIdx] == Count(CompoundOf(f, "fg").value.0) &&
            row[FgaIdx] == Count(CompoundOf(f, "fg").value.1) &&
            row[FgrIdx] == Pct(CompoundOf(f, "fg").value.0, CompoundOf(f, "fg").value.1)
    ensures CompoundOf(f, "3pt").Success? && row[TpmIdx] == Count(CompoundOf(f, "3pt").value.0) &&
            row[TpaIdx] == Count(CompoundOf(f, "3pt").value.1) &&
            row[TprIdx] == Pct(CompoundOf(f, "3pt").value.0, CompoundOf(f, "3pt").value.1)
    ensures CompoundOf(f, "ft").Success? && row[FtmIdx] == Count(CompoundOf(f, "ft").value.0) &&
            row[FtaIdx] == Count(CompoundOf(f, "ft").value.1) &&
            row[FtrIdx] == Pct(CompoundOf(f, "ft").value.0, CompoundOf(f, "ft").value.1)
  {
    var g := Derive(f).value;
    IndexConstantsName();
    DeriveFg(f, g);
    DeriveThree(f, g);
    DeriveFt(f, g);
    DerivedColumn(f, g, row, FgmIdx, FgaIdx, FgrIdx);
    DerivedColumn(f, g, row, TpmIdx, TpaIdx, TprIdx);
    DerivedColumn(f, g, row, FtmIdx, FtaIdx, FtrIdx);
  }

  /** The made, attempted and ratio cells at the given positions of `row` come from the
      compound value `v`. */
  predicate CompoundCells(row: Row, v: Json, made: nat, attempted: nat, ratio: nat) {
    made < |row| && attempted < |row| && ratio < |row| &&
    Compound.SplitValue(v).Success? &&
    row[made] == Count(Compound.SplitValue(v).value.0) &&
    row[attempted] == Count(Compound.SplitValue(v).value.1) &&
    row[ratio] == Pct(Compound.SplitValue(v).value.0, Compound.SplitValue(v).value.1)
  }

  /** A label present in a shaped frame that is no header name is one of the site's
      labels, renamed. */
  lemma StatLabelPosition(f: Frame, header: seq<Cell>, lbls: seq<string>, stats: seq<Json>, name: string)
    requires Shaped(f, header, lbls, stats)
    requires forall j :: 0 <= j < |HeaderCols| ==> HeaderCols[j] != name
    requires Occurrences(f, name) > 0
    ensures exists i :: 0 <= i < |lbls| && Renamed(lbls[i]) == name
  {
    var j :| 0 <= j < |f| && f[j].name == name;
    assert j >= |HeaderCols|;
    var i := j - |HeaderCols|;
    assert f[|HeaderCols| + i] == f[j];
    assert Renamed(lbls[i]) == name;
  }

  /** The header columns of a laid-out row hold the header cells. */
  lemma LayoutHeader(f: Frame, header: seq<Cell>, lbls: seq<string>, stats: seq<Json>, row: Row)
    requires Shaped(f, header, lbls, stats)
    requires Layout(f) == Success(row)
    ensures |row| == |BoxScoreCols| && row[..|HeaderCols|] == header
  {
    LayoutLength(f, row);
    HeaderColsArePrefix();
    forall k | 0 <= k < |HeaderCols| ensures row[k] == header[k] {
      LayoutColumn(f, row, k);
      LookupReads(f, HeaderCols[k], k);
    }
  }

  /** Each plain stat column of a laid-out row has a site label and holds its value. */
  lemma LayoutPlain(f: Frame, header: seq<Cell>, lbls: seq<string>, stats: seq<Json>, row: Row)
    requires Shaped(f, header, lbls, stats)
    requires Layout(f) == Success(row)
    ensures |row| == |BoxScoreCols|
    ensures forall k :: |HeaderCols| <= k < |BoxScoreCols| && BoxScoreCols[k] !in DerivedCols ==>
              exists i :: 0 <= i < |lbls| && Renamed(lbls[i]) == BoxScoreCols[k]
    ensures forall k, i ::
              (|HeaderCols| <= k < |BoxScoreCols| && BoxScoreCols[k] !in DerivedCols &&
               0 <= i < |lbls| && Renamed(lbls[i]) == BoxScoreCols[k]) ==> row[k] == Val(stats[i])
  {
    LayoutLength(f, row);
    forall k | |HeaderCols| <= k < |BoxScoreCols| && BoxScoreCols[k] !in DerivedCols
      ensures exists i :: 0 <= i < |lbls| && Renamed(lbls[i]) == BoxScoreCols[k]
    {
      LayoutPlainLabel(f, header, lbls, stats, row, k);
    }
    forall k, i | |HeaderCols| <= k < |BoxScoreCols| && BoxScoreCols[k] !in DerivedCols &&
                  0 <= i < |lbls| && Renamed(lbls[i]) == BoxScoreCols[k]
      ensures row[k] == Val(stats[i])
    {
      LayoutPlainValue(f, header, lbls, stats, row, k, i);
    }
  }

  lemma LayoutPlainLabel(f: Frame, header: seq<Cell>, lbls: seq<string>, stats: seq<Json>, row: Row, k: nat)
    requires Shaped(f, header, lbls, stats)
    requires Layout(f) == Success(row)
    requires |HeaderCols| <= k < |BoxScoreCols| && BoxScoreCols[k] !in DerivedCols
    ensures exists i :: 0 <= i < |lbls| && Renamed(lbls[i]) == BoxScoreCols[k]
  {
    StatColsAreNotHeaderCols();
    LayoutColumn(f, row, k);
    StatLabelPosition(f, header, lbls, stats, BoxScoreCols[k]);
  }

  lemma LayoutPlainValue(f: Frame, header: seq<Cell>, lbls: seq<string>, stats: seq<Json>, row: Row, k: nat, i: nat)
    requires Shaped(f, header, lbls, stats)
    requires Layout(f) == Success(row)
    requires |HeaderCols| <= k < |BoxScoreCols| && BoxScoreCols[k] !in DerivedCols
    requires i < |lbls| && Renamed(lbls[i]) == BoxScoreCols[k]
    ensures k < |row| && row[k] == Val(stats[i])
  {
    LayoutColumn(f, row, k);
    LookupReads(f, BoxScoreCols[k], |HeaderCols| + i);
  }

  /** A compound column that splits in a shaped frame reads the value of its label. */
  lemma CompoundFromLabel(f: Frame, header: seq<Cell>, lbls: seq<string>, stats: seq<Json>, c: string)
    requires Shaped(f, header, lbls, stats)
    requires forall j :: 0 <= j < |HeaderCols| ==> HeaderCols[j] != c
    requires CompoundOf(f, c).Success?
    ensures exists i :: 0 <= i < |lbls| && Renamed(lbls[i]) == c
    ensures forall i :: 0 <= i < |lbls| && Renamed(lbls[i]) == c ==> CompoundOf(f, c) == Compound.SplitValue(stats[i])
  {
    StatLabelPosition(f, header, lbls, stats, c);
    forall i | 0 <= i < |lbls| && Renamed(lbls[i]) == c
      ensures CompoundOf(f, c) == Compound.SplitValue(stats[i])
    {
      LookupReads(f, c, |HeaderCols| + i);
    }
  }

  /** A compound label is present among the site's labels, and its counts and ratio fill
      its derived columns of a laid-out row. */
  lemma LayoutCompoundOne(f: Frame, header: seq<Cell>, lbls: seq<string>, stats: seq<Json>, row: Row,
                          c: string, made: nat, attempted: nat, ratio: nat)
    requires Shaped(f, header, lbls, stats)
    requires Layout(f) == Success(row)
    requires || (c == "fg" && made == FgmIdx && attempted == FgaIdx && ratio == FgrIdx)
             || (c == "3pt" && made == TpmIdx && attempted == TpaIdx && ratio == TprIdx)
             || (c == "ft" && made == FtmIdx && attempted == FtaIdx && ratio == FtrIdx)
    ensures exists i :: 0 <= i < |lbls| && Renamed(lbls[i]) == c
    ensures forall i :: 0 <= i < |lbls| && Renamed(lbls[i]) == c ==> CompoundCells(row, stats[i], made, attempted, ratio)
  {
    LayoutDerived(f, row);
    StatColsAreNotHeaderCols();
    CompoundFromLabel(f, header, lbls, stats, c);
  }

  /** A stat row starts with `header`. */
  lemma StatRowHeader(header: seq<Cell>, lbls: seq<string>, stats: seq<Json>, row: Row)
    requires |header| == |HeaderCols|
    requires StatRow(header, lbls, stats) == Success(row)
    ensures |row| == |BoxScoreCols| && row[..|HeaderCols|] == header
  {
    LabelledColumns(header, lbls, stats);
    LayoutHeader(Labelled(header, lbls, stats), header, lbls, stats, row);
  }

  /** A stat row holds `header` in its header columns, the value under the site label of
      each plain stat column, and the counts and ratio of each compound label in its
      derived columns; each of these labels is present among `lbls`. */
  lemma StatRowContents(header: seq<Cell>, lbls: seq<string>, stats: seq<Json>, row: Row)
    requires |header| == |HeaderCols|
    requires StatRow(header, lbls, stats) == Success(row)
    ensures |lbls| == |stats| && |row| == |BoxScoreCols|
    ensures row[..|HeaderCols|] == header
    ensures forall k :: |HeaderCols| <= k < |BoxScoreCols| && BoxScoreCols[k] !in DerivedCols ==>
              exists i :: 0 <= i < |lbls| && Renamed(lbls[i]) == BoxScoreCols[k]
    ensures forall k, i ::
              (|HeaderCols| <= k < |BoxScoreCols| && BoxScoreCols[k] !in DerivedCols &&
               0 <= i < |lbls| && Renamed(lbls[i]) == BoxScoreCols[k]) ==> row[k] == Val(stats[i])
    ensures forall c :: c in CompoundCols ==> exists i :: 0 <= i < |lbls| && Renamed(lbls[i]) == c
    ensures forall i :: 0 <= i < |lbls| && Renamed(lbls[i]) == "fg" ==>
              CompoundCells(row, stats[i], FgmIdx, FgaIdx, FgrIdx)
    ensures forall i :: 0 <= i < |lbls| && Renamed(lbls[i]) == "3pt" ==>
              CompoundCells(row, stats[i], TpmIdx, TpaIdx, TprIdx)
    ensures forall i :: 0 <= i < |lbls| && Renamed(lbls[i]) == "ft" ==>
              CompoundCells(row, stats[i], FtmIdx, FtaIdx, FtrIdx)
  {
    LabelledColumns(header, lbls, stats);
    ShapedLayoutContents(Labelled(header, lbls, stats), header, lbls, stats, row);
  }

  /** The contents of a laid-out shaped frame, as `StatRowContents` states them. */
  lemma ShapedLayoutContents(f: Frame, header: seq<Cell>, lbls: seq<string>, stats: seq<Json>, row: Row)
    requires Shaped(f, header, lbls, stats)
    requires Layout(f) == Success(row)
    ensures |lbls| == |stats| && |row| == |BoxScoreCols|
    ensures row[..|HeaderCols|] == header
    ensures forall k :: |HeaderCols| <= k < |BoxScoreCols| && BoxScoreCols[k] !in DerivedCols ==>
              exists i :: 0 <= i < |lbls| && Renamed(lbls[i]) == BoxScoreCols[k]
    ensures forall k, i ::
              (|HeaderCols| <= k < |BoxScoreCols| && BoxScoreCols[k] !in DerivedCols &&
               0 <= i < |lbls| && Renamed(lbls[i]) == BoxScoreCols[k]) ==> row[k] == Val(stats[i])
    ensures forall c :: c in CompoundCols ==> exists i :: 0 <= i < |lbls| && Renamed(lbls[i]) == c
    ensures forall i :: 0 <= i < |lbls| && Renamed(lbls[i]) == "fg" ==>
              CompoundCells(row, stats[i], FgmIdx, FgaIdx, FgrIdx)
    ensures forall i :: 0 <= i < |lbls| && Renamed(lbls[i]) == "3pt" ==>
              CompoundCells(row, stats[i], TpmIdx, TpaIdx, TprIdx)
    ensures forall i :: 0 <= i < |lbls| && Renamed(lbls[i]) == "ft" ==>
              CompoundCells(row, stats[i], FtmIdx, FtaIdx, FtrIdx)
  {
    LayoutHeader(f, header, lbls, stats, row);
    LayoutPlain(f, header, lbls, stats, row);
    LayoutCompoundOne(f, header, lbls, stats, row, "fg", FgmIdx, FgaIdx, FgrIdx);
    LayoutCompoundOne(f, header, lbls, stats, row, "3pt", TpmIdx, TpaIdx, TprIdx);
    LayoutCompoundOne(f, header, lbls, stats, row, "ft", FtmIdx, FtaIdx, FtrIdx);
    CompoundsPresent(lbls);
  }

  /** Each compound label occurring in `lbls` is what it means for all of them to occur. */
  lemma CompoundsPresent(lbls: seq<string>)
    requires exists i :: 0 <= i < |lbls| && Renamed(lbls[i]) == "fg"
    requires exists i :: 0 <= i < |lbls| && Renamed(lbls[i]) == "3pt"
    requires exists i :: 0 <= i < |lbls| && Renamed(lbls[i]) == "ft"
    ensures forall c :: c in CompoundCols ==> exists i :: 0 <= i < |lbls| && Renamed(lbls[i]) == c
  {
    forall c | c in CompoundCols ensures exists i :: 0 <= i < |lbls| && Renamed(lbls[i]) == c {
      assert c == CompoundCols[0] || c == CompoundCols[1] || c == CompoundCols[2];
    }
  }

  /** None of the derived labels labels a column of `f`. */
  ghost predicate DerivedAbsent(f: Frame) {
    Occurrences(f, "fgm") == 0 && Occurrences(f, "fga") == 0 && Occurrences(f, "fgr") == 0 &&
    Occurrences(f, "3ptm") == 0 && Occurrences(f, "3pta") == 0 && Occurrences(f, "3ptr") == 0 &&
    Occurrences(f, "ftm") == 0 && Occurrences(f, "fta") == 0 && Occurrences(f, "ftr") == 0
  }

  /** The first split step succeeds on a splitting "fg" column and fresh derived labels. */
  lemma DeriveSucceedsFg(f: Frame)
    requires DerivedAbsent(f)
    requires CompoundOf(f, "fg").Success? && CompoundOf(f, "3pt").Success? && CompoundOf(f, "ft").Success?
    ensures SplitStep(f, "fg", "fgm", "fga").Success?
    ensures var f1 := SplitStep(f, "fg", "fgm", "fga").value;
            CompoundOf(f1, "3pt").Success? && CompoundOf(f1, "ft").Success? &&
            Lookup(f1, "fgm").Success? && Lookup(f1, "fga").Success? &&
            Occurrences(f1, "3ptm") == 0 && Occurrences(f1, "3pta") == 0 && Occurrences(f1, "3ptr") == 0 &&
            Occurrences(f1, "ftm") == 0 && Occurrences(f1, "fta") == 0 && Occurrences(f1, "ftr") == 0 &&
            Occurrences(f1, "fgr") == 0
  {
    SplitStepFacts(f, "fg", "fgm", "fga", "3pt");
    SplitStepFacts(f, "fg", "fgm", "fga", "ft");
    SplitStepFacts(f, "fg", "fgm", "fga", "3ptm");
    SplitStepFacts(f, "fg", "fgm", "fga", "3pta");
    SplitStepFacts(f, "fg", "fgm", "fga", "3ptr");
    SplitStepFacts(f, "fg", "fgm", "fga", "ftm");
    SplitStepFacts(f, "fg", "fgm", "fga", "fta");
    SplitStepFacts(f, "fg", "fgm", "fga", "ftr");
    SplitStepFacts(f, "fg", "fgm", "fga", "fgr");
  }

  /** The "3pt" split step succeeds likewise and keeps the field-goal counts. */
  lemma DeriveSucceedsThree(f1: Frame)
    requires CompoundOf(f1, "3pt").Success? && CompoundOf(f1, "ft").Success?
    requires Lookup(f1, "fgm").Success? && Lookup(f1, "fga").Success?
    requires Occurrences(f1, "3ptm") == 0 && Occurrences(f1, "3pta") == 0 && Occurrences(f1, "3ptr") == 0
    requires Occurrences(f1, "ftm") == 0 && Occurrences(f1, "fta") == 0 && Occurrences(f1, "ftr") == 0
    requires Occurrences(f1, "fgr") == 0
    ensures SplitStep(f1, "3pt", "3ptm", "3pta").Success?
    ensures var f2 := SplitStep(f1, "3pt", "3ptm", "3pta").value;
            CompoundOf(f2, "ft").Success? &&
            Lookup(f2, "fgm") == Lookup(f1, "fgm") && Lookup(f2, "fga") == Lookup(f1, "fga") &&
            Lookup(f2, "3ptm").Success? && Lookup(f2, "3pta").Success? &&
            Occurrences(f2, "ftm") == 0 && Occurrences(f2, "fta") == 0 && Occurrences(f2, "ftr") == 0 &&
            Occurrences(f2, "fgr") == 0 && Occurrences(f2, "3ptr") == 0
  {
    SplitStepFacts(f1, "3pt", "3ptm", "3pta", "ft");
    SplitStepFacts(f1, "3pt", "3ptm", "3pta", "fgm");
    SplitStepFacts(f1, "3pt", "3ptm", "3pta", "fga");
    SplitStepFacts(f1, "3pt", "3ptm", "3pta", "ftm");
    SplitStepFacts(f1, "3pt", "3ptm", "3pta", "fta");
    SplitStepFacts(f1, "3pt", "3ptm", "3pta", "ftr");
    SplitStepFacts(f1, "3pt", "3ptm", "3pta", "fgr");
    SplitStepFacts(f1, "3pt", "3ptm", "3pta", "3ptr");
  }

  /** The "ft" split step succeeds likewise and keeps the earlier counts. */
  lemma DeriveSucceedsFt(f2: Frame)
    requires CompoundOf(f2, "ft").Success?
    requires Lookup(f2, "fgm").Success? && Lookup(f2, "fga").Success?
    requires Lookup(f2, "3ptm").Success? && Lookup(f2, "3pta").Success?
    requires Occurrences(f2, "ftm") == 0 && Occurrences(f2, "fta") == 0 && Occurrences(f2, "ftr") == 0
    requires Occurrences(f2, "fgr") == 0 && Occurrences(f2, "3ptr") == 0
    ensures SplitStep(f2, "ft", "ftm", "fta").Success?
    ensures var f3 := SplitStep(f2, "ft", "ftm", "fta").value;
            Lookup(f3, "fgm") == Lookup(f2, "fgm") && Lookup(f3, "fga") == Lookup(f2, "fga") &&
            Lookup(f3, "3ptm") == Lookup(f2, "3ptm") && Lookup(f3, "3pta") == Lookup(f2, "3pta") &&
            Lookup(f3, "ftm").Success? && Lookup(f3, "fta").Success? &&
            Occurrences(f3, "fgr") == 0 && Occurrences(f3, "3ptr") == 0 && Occurrences(f3, "ftr") == 0
  {
    SplitStepFacts(f2, "ft", "ftm", "fta", "fgm");
    SplitStepFacts(f2, "ft", "ftm", "fta", "fga");
    SplitStepFacts(f2, "ft", "ftm", "fta", "3ptm");
    SplitStepFacts(f2, "ft", "ftm", "fta", "3pta");
    SplitStepFacts(f2, "ft", "ftm", "fta", "fgr");
    SplitStepFacts(f2, "ft", "ftm", "fta", "3ptr");
    SplitStepFacts(f2, "ft", "ftm", "fta", "ftr");
  }

  /** The field-goal ratio step succeeds on counts and a fresh ratio label. */
  lemma DeriveSucceedsFgr(f3: Frame)
    requires Lookup(f3, "fgm").Success? && Lookup(f3, "fgm").value.Count?
    requires Lookup(f3, "fga").Success? && Lookup(f3, "fga").value.Count?
    requires Occurrences(f3, "fgr") == 0 && Occurrences(f3, "3ptr") == 0 && Occurrences(f3, "ftr") == 0
    ensures RatioStep(f3, "fgm", "fga", "fgr").Success?
    ensures var f4 := RatioStep(f3, "fgm", "fga", "fgr").value;
            Lookup(f4, "fgr").Success? &&
            Lookup(f4, "3ptm") == Lookup(f3, "3ptm") && Lookup(f4, "3pta") == Lookup(f3, "3pta") &&
            Lookup(f4, "ftm") == Lookup(f3, "ftm") && Lookup(f4, "fta") == Lookup(f3, "fta") &&
            Occurrences(f4, "3ptr") == 0 && Occurrences(f4, "ftr") == 0
  {
    RatioStepSucceeds(f3, "fgm", "fga", "fgr");
    RatioStepFacts(f3, "fgm", "fga", "fgr", "3ptm");
    RatioStepFacts(f3, "fgm", "fga", "fgr", "3pta");
    RatioStepFacts(f3, "fgm", "fga", "fgr", "ftm");
    RatioStepFacts(f3, "fgm", "fga", "fgr", "fta");
    RatioStepFacts(f3, "fgm", "fga", "fgr", "3ptr");
    RatioStepFacts(f3, "fgm", "fga", "fgr", "ftr");
  }

  /** The two remaining ratio steps succeed likewise, and every ratio column can be
      selected afterwards. */
  lemma DeriveSucceedsRest(f4: Frame)
    requires Lookup(f4, "fgr").Success?
    requires Lookup(f4, "3ptm").Success? && Lookup(f4, "3ptm").value.Count?
    requires Lookup(f4, "3pta").Success? && Lookup(f4, "3pta").value.Count?
    requires Lookup(f4, "ftm").Success? && Lookup(f4, "ftm").value.Count?
    requires Lookup(f4, "fta").Success? && Lookup(f4, "fta").value.Count?
    requires Occurrences(f4, "3ptr") == 0 && Occurrences(f4, "ftr") == 0
    ensures RatioStep(f4, "3ptm", "3pta", "3ptr").Success?
    ensures var f5 := RatioStep(f4, "3ptm", "3pta", "3ptr").value;
            RatioStep(f5, "ftm", "fta", "ftr").Success? &&
            var g := RatioStep(f5, "ftm", "fta", "ftr").value;
            Lookup(g, "fgr").Success? && Lookup(g, "3ptr").Success? && Lookup(g, "ftr").Success?
  {
    DeriveSucceeds3ptr(f4);
    DeriveSucceedsFtr(RatioStep(f4, "3ptm", "3pta", "3ptr").value);
  }

  lemma DeriveSucceeds3ptr(f4: Frame)
    requires Lookup(f4, "fgr").Success?
    requires Lookup(f4, "3ptm").Success? && Lookup(f4, "3ptm").value.Count?
    requires Lookup(f4, "3pta").Success? && Lookup(f4, "3pta").value.Count?
    requires Lookup(f4, "ftm").Success? && Lookup(f4, "ftm").value.Count?
    requires Lookup(f4, "fta").Success? && Lookup(f4, "fta").value.Count?
    requires Occurrences(f4, "3ptr") == 0 && Occurrences(f4, "ftr") == 0
    ensures RatioStep(f4, "3ptm", "3pta", "3ptr").Success?
    ensures var f5 := RatioStep(f4, "3ptm", "3pta", "3ptr").value;
            Lookup(f5, "fgr").Success? && Lookup(f5, "3ptr").Success? &&
            Lookup(f5, "ftm").Success? && Lookup(f5, "ftm").value.Count? &&
            Lookup(f5, "fta").Success? && Lookup(f5, "fta").value.Count? &&
            Occurrences(f5, "ftr") == 0
  {
    RatioStepSucceeds(f4, "3ptm", "3pta", "3ptr");
    RatioStepKeeps(f4, "3ptm", "3pta", "3ptr", "fgr");
    RatioStepKeeps(f4, "3ptm", "3pta", "3ptr", "ftm");
    RatioStepKeeps(f4, "3ptm", "3pta", "3ptr", "fta");
    RatioStepKeeps(f4, "3ptm", "3pta", "3ptr", "ftr");
  }

  lemma DeriveSucceedsFtr(f5: Frame)
    requires Lookup(f5, "fgr").Success? && Lookup(f5, "3ptr").Success?
    requires Lookup(f5, "ftm").Success? && Lookup(f5, "ftm").value.Count?
    requires Lookup(f5, "fta").Success? && Lookup(f5, "fta").value.Count?
    requires Occurrences(f5, "ftr") == 0
    ensures RatioStep(f5, "ftm", "fta", "ftr").Success?
    ensures var g := RatioStep(f5, "ftm", "fta", "ftr").value;
            Lookup(g, "fgr").Success? && Lookup(g, "3ptr").Success? && Lookup(g, "ftr").Success?
  {
    RatioStepSucceeds(f5, "ftm", "fta", "ftr");
    RatioStepKeeps(f5, "ftm", "fta", "ftr", "fgr");
    RatioStepKeeps(f5, "ftm", "fta", "ftr", "3ptr");
  }

  /** Deriving succeeds when the three compound columns split and no derived label is taken,
      and every ratio column can be selected afterwards. */
  lemma DeriveSucceeds(f: Frame)
    requires DerivedAbsent(f)
    requires CompoundOf(f, "fg").Success? && CompoundOf(f, "3pt").Success? && CompoundOf(f, "ft").Success?
    ensures Derive(f).Success?
    ensures Lookup(Derive(f).value, "fgr").Success? && Lookup(Derive(f).value, "3ptr").Success?
    ensures Lookup(Derive(f).value, "ftr").Success?
  {
    DeriveSucceedsFg(f);
    var f1 := SplitStep(f, "fg", "fgm", "fga").value;
    SplitStepFacts(f, "fg", "fgm", "fga", "");
    DeriveSucceedsThree(f1);
    var f2 := SplitStep(f1, "3pt", "3ptm", "3pta").value;
    SplitStepFacts(f1, "3pt", "3ptm", "3pta", "");
    DeriveSucceedsFt(f2);
    var f3 := SplitStep(f2, "ft", "ftm", "fta").value;
    SplitStepFacts(f2, "ft", "ftm", "fta", "");
    DeriveSucceedsFgr(f3);
    DeriveSucceedsRest(RatioStep(f3, "fgm", "fga", "fgr").value);
  }

  /** Site labels that rename to distinct columns, none a header or derived one, covering
      every plain stat column and every compound one. */
  ghost predicate CleanLabels(lbls: seq<string>) {
    (forall i, j :: 0 <= i < j < |lbls| ==> Renamed(lbls[i]) != Renamed(lbls[j])) &&
    (forall i :: 0 <= i < |lbls| ==> Renamed(lbls[i]) !in HeaderCols && Renamed(lbls[i]) !in DerivedCols) &&
    (forall k :: |HeaderCols| <= k < |BoxScoreCols| && BoxScoreCols[k] !in DerivedCols ==>
       exists i :: 0 <= i < |lbls| && Renamed(lbls[i]) == BoxScoreCols[k]) &&
    (forall c :: c in CompoundCols ==> exists i :: 0 <= i < |lbls| && Renamed(lbls[i]) == c)
  }

  /** Every value under a compound label splits. */
  ghost predicate CompoundsSplit(lbls: seq<string>, stats: seq<Json>) {
    forall i :: 0 <= i < |lbls| && i < |stats| && Renamed(lbls[i]) in CompoundCols ==>
      Compound.SplitValue(stats[i]).Success?
  }

  /** With clean labels each header name occurs once in a shaped frame. */
  lemma ShapedHeaderOnce(f: Frame, header: seq<Cell>, lbls: seq<string>, stats: seq<Json>, k: nat)
    requires Shaped(f, header, lbls, stats) && CleanLabels(lbls)
    requires k < |HeaderCols|
    ensures Occurrences(f, HeaderCols[k]) == 1
  {
    HeaderColsDistinct();
    assert HeaderCols[k] in HeaderCols;
    forall j | 0 <= j < |f| && j != k ensures f[j].name != HeaderCols[k] {
      if j >= |HeaderCols| {
        var i := j - |HeaderCols|;
        assert f[|HeaderCols| + i] == f[j];
        assert f[j].name == Renamed(lbls[i]) && Renamed(lbls[i]) !in HeaderCols;
      } else {
        assert f[j].name == HeaderCols[j];
      }
    }
    OccurrencesOne(f, k, HeaderCols[k]);
  }

  /** With clean labels each renamed site label occurs once in a shaped frame. */
  lemma ShapedLabelOnce(f: Frame, header: seq<Cell>, lbls: seq<string>, stats: seq<Json>, i: nat)
    requires Shaped(f, header, lbls, stats) && CleanLabels(lbls)
    requires i < |lbls|
    ensures Occurrences(f, Renamed(lbls[i])) == 1
    ensures Lookup(f, Renamed(lbls[i])) == Success(Val(stats[i]))
  {
    var h := |HeaderCols|;
    assert Renamed(lbls[i]) !in HeaderCols;
    forall j | 0 <= j < |f| && j != h + i ensures f[j].name != Renamed(lbls[i]) {
      if j >= h {
        var i' := j - h;
        assert f[h + i'] == f[j];
        assert f[j].name == Renamed(lbls[i']) && i' != i;
      } else {
        assert f[j].name == HeaderCols[j] && HeaderCols[j] in HeaderCols;
      }
    }
    OccurrencesOne(f, h + i, Renamed(lbls[i]));
    LookupReads(f, Renamed(lbls[i]), h + i);
  }

  /** With clean labels no derived label occurs in a shaped frame. */
  lemma ShapedDerivedAbsent(f: Frame, header: seq<Cell>, lbls: seq<string>, stats: seq<Json>)
    requires Shaped(f, header, lbls, stats) && CleanLabels(lbls)
    ensures DerivedAbsent(f)
  {
    HeaderColsArePrefix();
    forall j | 0 <= j < |f| ensures f[j].name !in DerivedCols {
      if j >= |HeaderCols| {
        var i := j - |HeaderCols|;
        assert f[|HeaderCols| + i] == f[j];
        assert f[j].name == Renamed(lbls[i]);
      } else {
        assert f[j].name == HeaderCols[j];
      }
    }
    assert "fgm" in DerivedCols && "fga" in DerivedCols && "fgr" in DerivedCols;
    assert "3ptm" in DerivedCols && "3pta" in DerivedCols && "3ptr" in DerivedCols;
    assert "ftm" in DerivedCols && "fta" in DerivedCols && "ftr" in DerivedCols;
  }

  /** With clean labels whose compound values split, the compound columns of a shaped frame
      split. */
  lemma ShapedCompoundsSplit(f: Frame, header: seq<Cell>, lbls: seq<string>, stats: seq<Json>, c: string)
    requires Shaped(f, header, lbls, stats) && CleanLabels(lbls) && CompoundsSplit(lbls, stats)
    requires c in CompoundCols
    ensures CompoundOf(f, c).Success?
  {
    var i :| 0 <= i < |lbls| && Renamed(lbls[i]) == c;
    ShapedLabelOnce(f, header, lbls, stats, i);
  }

  /** Every header column can be selected from a shaped frame once derived. */
  lemma ShapedProjectsHeader(f: Frame, header: seq<Cell>, lbls: seq<string>, stats: seq<Json>, g: Frame, k: nat)
    requires Shaped(f, header, lbls, stats) && CleanLabels(lbls)
    requires Derive(f) == Success(g)
    requires k < |HeaderCols|
    ensures Lookup(g, HeaderCols[k]).Success?
  {
    HeaderColsArePrefix();
    DeriveKeeps(f, g, HeaderCols[k]);
    ShapedHeaderOnce(f, header, lbls, stats, k);
  }

  /** Every plain stat column can be selected from a shaped frame once derived. */
  lemma ShapedProjectsPlain(f: Frame, header: seq<Cell>, lbls: seq<string>, stats: seq<Json>, g: Frame, k: nat)
    requires Shaped(f, header, lbls, stats) && CleanLabels(lbls)
    requires Derive(f) == Success(g)
    requires |HeaderCols| <= k < |BoxScoreCols| && BoxScoreCols[k] !in DerivedCols
    ensures Lookup(g, BoxScoreCols[k]).Success?
  {
    var i :| 0 <= i < |lbls| && Renamed(lbls[i]) == BoxScoreCols[k];
    DeriveKeeps(f, g, BoxScoreCols[k]);
    ShapedLabelOnce(f, header, lbls, stats, i);
  }

  /** The field-goal columns can be selected once deriving succeeded and the ratio can be. */
  lemma ProjectsFg(f: Frame, g: Frame, k: nat)
    requires Derive(f) == Success(g) && Lookup(g, "fgr").Success?
    requires k == FgrIdx || k == FgmIdx || k == FgaIdx
    ensures k < |BoxScoreCols| && Lookup(g, BoxScoreCols[k]).Success?
  {
    IndexConstantsName();
    DeriveFg(f, g);
    if k == FgrIdx {
      assert BoxScoreCols[k] == BoxScoreCols[FgrIdx];
    } else if k == FgmIdx {
      assert BoxScoreCols[k] == BoxScoreCols[FgmIdx];
    } else {
      assert BoxScoreCols[k] == BoxScoreCols[FgaIdx];
    }
  }

  /** The three-point columns can be selected once deriving succeeded and the ratio can be. */
  lemma ProjectsThree(f: Frame, g: Frame, k: nat)
    requires Derive(f) == Success(g) && Lookup(g, "3ptr").Success?
    requires k == TprIdx || k == TpmIdx || k == TpaIdx
    ensures k < |BoxScoreCols| && Lookup(g, BoxScoreCols[k]).Success?
  {
    IndexConstantsName();
    DeriveThree(f, g);
    if k == TprIdx {
      assert BoxScoreCols[k] == BoxScoreCols[TprIdx];
    } else if k == TpmIdx {
      assert BoxScoreCols[k] == BoxScoreCols[TpmIdx];
    } else {
      assert BoxScoreCols[k] == BoxScoreCols[TpaIdx];
    }
  }

  /** The free-throw columns can be selected once deriving succeeded and the ratio can be. */
  lemma ProjectsFt(f: Frame, g: Frame, k: nat)
    requires Derive(f) == Success(g) && Lookup(g, "ftr").Success?
    requires k == FtrIdx || k == FtmIdx || k == FtaIdx
    ensures k < |BoxScoreCols| && Lookup(g, BoxScoreCols[k]).Success?
  {
    IndexConstantsName();
    DeriveFt(f, g);
    if k == FtrIdx {
      assert BoxScoreCols[k] == BoxScoreCols[FtrIdx];
    } else if k == FtmIdx {
      assert BoxScoreCols[k] == BoxScoreCols[FtmIdx];
    } else {
      assert BoxScoreCols[k] == BoxScoreCols[FtaIdx];
    }
  }

  /** Every output column can be selected from a shaped frame once derived. */
  lemma ShapedProjects(f: Frame, header: seq<Cell>, lbls: seq<string>, stats: seq<Json>, g: Frame, k: nat)
    requires Shaped(f, header, lbls, stats) && CleanLabels(lbls)
    requires Derive(f) == Success(g)
    requires Lookup(g, "fgr").Success? && Lookup(g, "3ptr").Success? && Lookup(g, "ftr").Success?
    requires k < |BoxScoreCols|
    ensures Lookup(Drop(g, CompoundCols), BoxScoreCols[k]).Success?
  {
    HeaderColsDistinct();
    LookupDropOther(g, CompoundCols, BoxScoreCols[k]);
    if k < |HeaderCols| {
      HeaderColsArePrefix();
      ShapedProjectsHeader(f, header, lbls, stats, g, k);
    } else if BoxScoreCols[k] !in DerivedCols {
      ShapedProjectsPlain(f, header, lbls, stats, g, k);
    } else {
      DerivedColsPlace(k);
      if k == FgrIdx || k == FgmIdx || k == FgaIdx {
        ProjectsFg(f, g, k);
      } else if k == TprIdx || k == TpmIdx || k == TpaIdx {
        ProjectsThree(f, g, k);
      } else {
        ProjectsFt(f, g, k);
      }
    }
  }

  /** A stat row is built whenever the labels are clean, there is one value per label, and
      every compound value splits. */
  lemma StatRowSucceeds(header: seq<Cell>, lbls: seq<string>, stats: seq<Json>)
    requires |header| == |HeaderCols| && |lbls| == |stats|
    requires CleanLabels(lbls) && CompoundsSplit(lbls, stats)
    ensures StatRow(header, lbls, stats).Success?
  {
    LabelledColumns(header, lbls, stats);
    ShapedLayoutSucceeds(Labelled(header, lbls, stats), header, lbls, stats);
  }

  /** A shaped frame with clean labels whose compound values split can be laid out. */
  lemma ShapedLayoutSucceeds(f: Frame, header: seq<Cell>, lbls: seq<string>, stats: seq<Json>)
    requires Shaped(f, header, lbls, stats) && CleanLabels(lbls) && CompoundsSplit(lbls, stats)
    ensures Layout(f).Success?
  {
    ShapedDerivedAbsent(f, header, lbls, stats);
    ShapedCompoundsSplit(f, header, lbls, stats, "fg");
    ShapedCompoundsSplit(f, header, lbls, stats, "3pt");
    ShapedCompoundsSplit(f, header, lbls, stats, "ft");
    DeriveSucceeds(f);
    ShapedProjectsAll(f, header, lbls, stats, Derive(f).value);
  }

  /** Every output column can be selected from a shaped frame once derived. */
  lemma ShapedProjectsAll(f: Frame, header: seq<Cell>, lbls: seq<string>, stats: seq<Json>, g: Frame)
    requires Shaped(f, header, lbls, stats) && CleanLabels(lbls)
    requires Derive(f) == Success(g)
    requires Lookup(g, "fgr").Success? && Lookup(g, "3ptr").Success? && Lookup(g, "ftr").Success?
    ensures Project(Drop(g, CompoundCols), BoxScoreCols).Success?
  {
    forall k | 0 <= k < |BoxScoreCols| ensures Lookup(Drop(g, CompoundCols), BoxScoreCols[k]).Success? {
      ShapedProjects(f, header, lbls, stats, g, k);
    }
  }
  /** A label list for a box-score table: the keys of `PLAYED_STATS_RENAME_COLS`
      (nba_stats/cond.py:51-66), in their order, with `+/-` where its entry is commented out.
      The source does not record what the site actually sends; this is the list its rename
      table is written for. */
  const SiteLabels: seq<string> :=
    ["MIN", "FG", "3PT", "FT", "OREB", "DREB", "REB", "AST", "STL", "BLK", "TO", "PF", "+/-", "PTS"]

  /** `SiteLabels` after renaming. */
  const SiteColumns: seq<string> :=
    ["min", "fg", "3pt", "ft", "oreb", "dreb", "reb", "ast", "stl", "blk", "to", "pf", "+/-", "pts"]

  lemma SiteLabelsRenamed()
    ensures |SiteLabels| == |SiteColumns| == 14
    ensures forall i :: 0 <= i < |SiteLabels| ==> Renamed(SiteLabels[i]) == SiteColumns[i]
  {
  }

  lemma SiteColumnsDistinct()
    ensures forall i, j :: 0 <= i < j < |SiteColumns| ==> SiteColumns[i] != SiteColumns[j]
  {
  }

  lemma SiteColumnsFresh()
    ensures forall i :: 0 <= i < |SiteColumns| ==> SiteColumns[i] !in HeaderCols && SiteColumns[i] !in DerivedCols
  {
  }

  lemma SiteColumnsCover()
    ensures forall k :: |HeaderCols| <= k < |BoxScoreCols| && BoxScoreCols[k] !in DerivedCols ==> BoxScoreCols[k] in SiteColumns
    ensures forall c :: c in CompoundCols ==> c in SiteColumns
  {
  }

  /** `SiteLabels` is clean: every plain stat column and every compound column is
      labelled once, and none clashes with a header or derived column. */
  lemma SiteLabelsClean()
    ensures CleanLabels(SiteLabels)
  {
    SiteLabelsRenamed();
    SiteColumnsDistinct();
    SiteColumnsFresh();
    SiteColumnsCover();
    forall k | |HeaderCols| <= k < |BoxScoreCols| && BoxScoreCols[k] !in DerivedCols
      ensures exists i :: 0 <= i < |SiteLabels| && Renamed(SiteLabels[i]) == BoxScoreCols[k]
    {
      var i :| 0 <= i < |SiteColumns| && SiteColumns[i] == BoxScoreCols[k];
      assert Renamed(SiteLabels[i]) == BoxScoreCols[k];
    }
    forall c | c in CompoundCols
      ensures exists i :: 0 <= i < |SiteLabels| && Renamed(SiteLabels[i]) == c
    {
      var i :| 0 <= i < |SiteColumns| && SiteColumns[i] == c;
      assert Renamed(SiteLabels[i]) == c;
    }
  }
  /** Under `SiteLabels`, fourteen values whose FG, 3PT and FT entries are "m-a"
      strings always make a stat row. */
  lemma SiteRowBuilt(header: seq<Cell>, stats: seq<Json>)
    requires |header| == |HeaderCols| && |stats| == |SiteLabels|
    requires Compound.SplitValue(stats[1]).Success? && Compound.SplitValue(stats[2]).Success?
    requires Compound.SplitValue(stats[3]).Success?
    ensures StatRow(header, SiteLabels, stats).Success?
  {
    SiteLabelsClean();
    SiteCompoundsSplit(stats);
    StatRowSucceeds(header, SiteLabels, stats);
  }

  /** Under `SiteLabels` only the FG, 3PT and FT entries need to split. */
  lemma SiteCompoundsSplit(stats: seq<Json>)
    requires |stats| == |SiteLabels|
    requires Compound.SplitValue(stats[1]).Success? && Compound.SplitValue(stats[2]).Success?
    requires Compound.SplitValue(stats[3]).Success?
    ensures CompoundsSplit(SiteLabels, stats)
  {
    SiteLabelsRenamed();
    forall i | 0 <= i < |SiteLabels| && i < |stats| && Renamed(SiteLabels[i]) in CompoundCols
      ensures Compound.SplitValue(stats[i]).Success?
    {
      SiteCompoundAt(i);
    }
  }

  /** Among `SiteColumns` exactly the entries 1-3 are compound. */
  lemma SiteCompoundAt(i: nat)
    requires i < |SiteColumns|
    ensures SiteColumns[i] in CompoundCols <==> 1 <= i <= 3
  {
  }
}

=== FILE: url.dfy ===
/** `get_url`: argument validation in a fixed order, then the page address template. */
module Url {
  import opened Wrappers
  import opened Errors

  /** A Python argument: a string, or some other value of which only truthiness matters here. */
  datatype PyArg = Str(s: string) | Other(truthy: bool)

  predicate Truthy(a: PyArg) {
    match a
    case Str(s) => s != ""
    case Other(t) => t
  }

  /** What a successful `get_url` stores on the scraper: the game identifier and the address. */
  datatype Target = Target(idx: string, url: string)

  const Prefix: string := "https://www.espn.com/nba/"
  const GameIdSegment: string := "/_/gameId/"

  function PageUrl(pageTyp: string, idx: string): string {
    Prefix + pageTyp + GameIdSegment + idx
  }

  /** Validates `idx` completely before looking at `pageTyp`; a failure stores nothing. */
  function GetUrl(idx: PyArg, pageTyp: PyArg): (r: Result<Target, Error>)
    ensures r.Success? <==> idx.Str? && idx.s != "" && pageTyp.Str? && pageTyp.s != ""
    ensures r.Success? ==> r.value == Target(idx.s, "https://www.espn.com/nba/" + pageTyp.s + "/_/gameId/" + idx.s)
    ensures !Truthy(idx) ==> r == Failure(MissingIdx)
    ensures Truthy(idx) && !idx.Str? ==> r == Failure(IdxNotString)
    ensures idx.Str? && idx.s != "" && !Truthy(pageTyp) ==> r == Failure(MissingPageTyp)
    ensures idx.Str? && idx.s != "" && Truthy(pageTyp) && !pageTyp.Str? ==> r == Failure(PageTypNotString)
  {
    if !Truthy(idx) then Failure(MissingIdx)
    else if !idx.Str? then Failure(IdxNotString)
    else if !Truthy(pageTyp) then Failure(MissingPageTyp)
    else if !pageTyp.Str? then Failure(PageTypNotString)
    else Success(Target(idx.s, PageUrl(pageTyp.s, idx.s)))
  }

  /** Index of the first '/' in `s`, if any. */
  function FirstSlash(s: string): (r: Option<nat>)
    ensures r.Some? ==> r.value < |s| && s[r.value] == '/' && '/' !in s[..r.value]
    ensures r.None? ==> '/' !in s
  {
    if |s| == 0 then None
    else if s[0] == '/' then Some(0)
    else match FirstSlash(s[1..])
      case None => None
      case Some(k) => assert s[..k + 1] == [s[0]] + s[1..][..k]; Some(k + 1)
  }

  /** Reads a page address back into (page type, game identifier); the page type runs
      up to the first '/' after the prefix. */
  function ParseUrl(url: string): Option<(string, string)> {
    if |url| < |Prefix| || url[..|Prefix|] != Prefix then None
    else
      var rest := url[|Prefix|..];
      match FirstSlash(rest)
      case None => None
      case Some(k) =>
        if |rest| - k >= |GameIdSegment| && rest[k..k + |GameIdSegment|] == GameIdSegment
        then Some((rest[..k], rest[k + |GameIdSegment|..]))
        else None
  }

  /** The address of a page type without '/' reads back to the arguments it was built from. */
  lemma PageUrlRoundTrip(pageTyp: string, idx: string)
    requires '/' !in pageTyp
    ensures ParseUrl(PageUrl(pageTyp, idx)) == Some((pageTyp, idx))
  {
    var url := PageUrl(pageTyp, idx);
    assert url[..|Prefix|] == Prefix;
    var rest := url[|Prefix|..];
    assert rest == pageTyp + GameIdSegment + idx;
    FirstSlashOfJoin(pageTyp, GameIdSegment + idx);
    assert rest[|pageTyp|..|pageTyp| + |GameIdSegment|] == GameIdSegment;
    assert rest[..|pageTyp|] == pageTyp;
    assert rest[|pageTyp| + |GameIdSegment|..] == idx;
  }

  lemma {:induction false} FirstSlashOfJoin(a: string, b: string)
    requires '/' !in a && |b| > 0 && b[0] == '/'
    ensures FirstSlash(a + b) == Some(|a|)
  {
    if |a| > 0 {
      assert (a + b)[1..] == a[1..] + b;
      FirstSlashOfJoin(a[1..], b);
    }
  }

  /** Every address that reads back was built by `PageUrl` from what it reads back to. */
  lemma ParseUrlSound(url: string, pageTyp: string, idx: string)
    requires ParseUrl(url) == Some((pageTyp, idx))
    ensures '/' !in pageTyp
    ensures PageUrl(pageTyp, idx) == url
  {
    var rest := url[|Prefix|..];
    var k := FirstSlash(rest).value;
    assert rest == rest[..k] + rest[k..k + |GameIdSegment|] + rest[k + |GameIdSegment|..];
    assert url == url[..|Prefix|] + rest;
  }

  /** The identifier and page types used in the unit tests produce the documented addresses,
      and the identifiers and page types they reject fail with the expected errors: `None`
      and `[]` are falsy, while `1`, `True` and `['boxscore']` are truthy non-strings. */
  lemma BoxScoreUrlExample()
    ensures GetUrl(Str("401547683"), Str("boxscore")) ==
              Success(Target("401547683", "https://www.espn.com/nba/boxscore/_/gameId/401547683"))
    ensures GetUrl(Str("401547683"), Str("game")) ==
              Success(Target("401547683", "https://www.espn.com/nba/game/_/gameId/401547683"))
    ensures GetUrl(Str(""), Str("boxscore")) == Failure(MissingIdx)
    ensures GetUrl(Other(false), Str("boxscore")) == Failure(MissingIdx)
    ensures GetUrl(Other(true), Str("boxscore")) == Failure(IdxNotString)
    ensures GetUrl(Str("401547683"), Str("")) == Failure(MissingPageTyp)
    ensures GetUrl(Str("401547683"), Other(false)) == Failure(MissingPageTyp)
    ensures GetUrl(Str("401547683"), Other(true)) == Failure(PageTypNotString)
  {
    assert PageUrl("boxscore", "401547683") == "https://www.espn.com/nba/boxscore/_/gameId/401547683";
    assert PageUrl("game", "401547683") == "https://www.espn.com/nba/game/_/gameId/401547683";
  }
}

=== FILE: wrappers.dfy ===
/** Failure-compatible wrappers: Option for Python's None, Result for a raised exception. */
module Wrappers {

  datatype Option<+T> = None | Some(value: T)

  /** A value, or the exception that the modelled Python code would raise instead. */
  datatype Result<+T, +E> = Success(value: T) | Failure(error: E) {

    predicate IsFailure() {
      Failure?
    }

    function PropagateFailure<U>(): Result<U, E>
      requires Failure?
    {
      Failure(error)
    }

    function Extract(): T
      requires Success?
    {
      value
    }
  }
}
